=== FILE: README.md ===
# NeuQuant colour quantiser — a Dafny model

This project models the core of a JavaScript port of Anthony Dekker's
NeuQuant colour quantiser. That core has two parts.

The engine (`src/neuquant.js`):
- validates its options;
- starts from a grey ramp of `netsize` entries;
- trains the entries on pixels sampled along a prime stride, using a biased
  competition (`contest`) and a shrinking neighbourhood (`alterneigh`);
- de-biases the network (`unbiasnet`);
- sorts it by green and builds the green index (`inxbuild`);
- returns the palette in the entries' original order (`getColorMap`).

The helpers (`src/helpers.js`) use the palette:
- `findClosest` looks up the nearest palette entry by squared RGB distance;
- `indexed` maps each pixel to an entry, memoising on the packed colour key;
- `palette` and `quantize` chain the whole pipeline.

## Modules

- `JsNumbers` (`js_numbers.dfy`): the JavaScript number operations the code
  relies on. These are ToInt32 and ToUint32 wrap-around, `>>` and `<<` on
  32-bit integers, truncation, and `& 0xff`.
- `NeuQuant` (`neuquant.dfy`): the engine's constants, options, error kinds,
  entries and constructor.
- `Competition` (`competition.dfy`): `contest`. This covers the plain and
  the biased nearest entry, the frequency/bias bookkeeping with Uint32
  wrap-around, and the quantity that bookkeeping conserves.
- `Learning` (`learning.dfy`): the control structure of `learn`. This covers
  the sample count, the stride, the sample positions, the radius schedule,
  the neighbourhood walk of `alterneigh` and the loop itself. The
  floating-point update that moves an entry toward a sample is a parameter
  `pull`.
- `Reorganise` (`reorganise.dfy`): `unbiasnet`, `inxbuild` (a recursive
  reference definition plus the loop the engine runs, proved equal),
  `getColorMap` and `buildColorMap`.
- `MemoKey` (`memo_key.dfy`): the memo key `r << 16 | g << 8 | b`.
- `Helpers` (`helpers.dfy`): `findClosest`, `indexed`, `palette` and
  `quantize`.

## Behaviour worth knowing

The model follows the code in each of these cases.

- For a buffer shorter than 1509 bytes, the code forces `samplefac` to 1
  (`src/neuquant.js:241`) only after the sample count has been computed with
  the caller's `samplefac` (`src/neuquant.js:223`). So a 30-byte buffer at
  samplefac 10 takes one sample, not ten
  (`Learning.ShortBufferSamplesAreNotPerPixel`).
- `alterneigh` takes the lower bound of its neighbourhood as
  `Math.abs(i - radius)`. When the winner i is closer to position 0 than
  the radius, this reflects the bound instead of clamping it at 0. The
  positions at or below `radius - i` are then left out, even though they
  are within the radius; the positions between that bound and the winner
  still move. With the winner at 5 and radius 7, positions 3 and 4 move
  and positions 0, 1 and 2 do not
  (`Learning.NeighbourhoodTruncatedNearStart`).
- `contest` raises the frequency of the entry nearest by plain distance,
  but it returns the entry nearest by biased distance. The two can differ
  (`Competition.WinnerNeedNotBeNearest`).
- The selection sort in `inxbuild` is not stable (`Reorganise.InxIsNotStable`).

## Model

| member | source | states |
|---|---|---|
| JsNumbers.ToUint32 | src/neuquant.js:168-169 | the value stored in a Uint32Array cell is in [0, 2^32) and congruent to the assigned number modulo 2^32 |
| JsNumbers.ToInt32 | src/neuquant.js:161 | the operand of `>>` is the 32-bit signed integer congruent to the number, unchanged when it already fits |
| JsNumbers.LowByte | src/neuquant.js:307-309 | `x & 0xff` is the byte congruent to x modulo 256, and x itself when x is a byte |
| JsNumbers.ShrOfSmall | src/neuquant.js:167 | for a non-negative value below 2^31, `x >> s` is floor division by 2^s and never exceeds x |
| NeuQuant.NewEngine | src/neuquant.js:54-101 | succeeds exactly when 4 <= netsize <= 256 and 1 <= samplefac <= 30; netsize is checked first; on success entry i is grey at level i * 4096 / netsize with tag 0, freq is intbias/netsize and bias is 0 |
| NeuQuant.InitialRampIsIncreasing | src/neuquant.js:96-98 | the initial network starts at 0, is strictly increasing in position and stays below 256 << netbiasshift |
| Competition.Contest | src/neuquant.js:146-176 | the returned position is the first entry with the least biased distance, or -1 when none is below the initial bound; every counter stays a Uint32 |
| Competition.ScanFrom | src/neuquant.js:152-165 | the scan from position i on returns the first position with the least value below the bound so far, or -1 when no value is below it |
| Competition.Nearest | src/neuquant.js:152-159 | the plain-distance scan returns the first entry with the least distance, or -1 when none is below the initial bound |
| Competition.Winner | src/neuquant.js:161-165 | the biased scan returns the first entry with the least biased distance, or -1 when none is below the initial bound |
| Competition.BetaFreq | src/neuquant.js:167 | for a frequency below 2^31, `freq >> 10` is its floor division by 1024 and never exceeds it |
| Competition.DecayedFreq | src/neuquant.js:167-168 | the decayed frequency is a Uint32 congruent to freq - (freq >> 10) modulo 2^32, and for a frequency below 2^31 it is freq - freq / 1024 |
| Competition.RaisedBias | src/neuquant.js:167-169 | the raised bias is a Uint32 congruent to bias + 1024 * (freq >> 10) modulo 2^32 |
| Competition.ContestBoostsOnlyNearest | src/neuquant.js:156-173 | an entry loses freq >> 10 of its frequency, and only the entry nearest by plain distance also gains beta |
| Competition.ContestKeepsLedger | src/neuquant.js:167-173 | bias + 1024 * freq of every entry is unchanged modulo 2^32 by a contest |
| Competition.DecayKeepsLedger | src/neuquant.js:167-169 | the per-entry decay of freq and raise of bias keeps bias + 1024 * freq modulo 2^32 |
| Competition.Boost | src/neuquant.js:172-173 | a store at bestpos changes only that cell, to a Uint32 congruent to the old value plus the change; a store at -1 changes nothing |
| Competition.BoostKeepsLedger | src/neuquant.js:172-173 | the boost of the nearest entry keeps bias + 1024 * freq modulo 2^32 |
| Competition.WinnerNeedNotBeNearest | src/neuquant.js:156-165 | an input where the boosted (plain-nearest) entry differs from the returned (biased-nearest) entry |
| Competition.ContestHasWinner | src/neuquant.js:147-165 | with channels and samples in [0, 4096), a non-empty network always yields a winner |
| Learning.Stride | src/neuquant.js:239-251 | the stride is 3 exactly for buffers shorter than 1509 bytes; otherwise it is 3 times the first of 499, 491, 487 that does not divide the length, falling back to 503 |
| Learning.SampleCount | src/neuquant.js:223 | the number of samples never exceeds the buffer length and is 0 exactly for an empty buffer |
| Learning.Delta | src/neuquant.js:225 | delta is 0 when ncycles is 0; for positive ncycles and a buffer below 2^31 bytes it is samplepixels / ncycles truncated to an integer; for negative ncycles it is not positive |
| Learning.SampleCountMatchesLoopBound | src/neuquant.js:223-255 | the integer sample count is exactly the number of i with i < length / (3 * samplefac) |
| Learning.ShortBufferSamplesAreNotPerPixel | src/neuquant.js:223-242 | a 30-byte buffer takes one sample at samplefac 10, against ten at samplefac 1 |
| Learning.Advance | src/neuquant.js:266-269 | inside the buffer, with a stride no longer than it, advancing pix is addition modulo the length and stays inside the buffer |
| Learning.SamplePos | src/neuquant.js:253-269 | with a stride no longer than the buffer, every sample offset lies inside the buffer |
| Learning.SamplePosInBuffer | src/neuquant.js:255-269 | every sample the loop takes starts inside the buffer |
| Learning.SamplePosIsModular | src/neuquant.js:266-269 | the i-th sample offset is i * step modulo the length |
| Learning.SamplesArePixelAligned | src/neuquant.js:266-269 | for a length that is a multiple of 3, every sample offset is the start of a pixel |
| Learning.ByteAt | src/neuquant.js:256-258 | a byte inside the buffer is read as it is, and an offset past the end reads as 0 |
| Learning.SampleAt | src/neuquant.js:256-258 | channel c of the sample is 16 times the byte at pix + c (0 past the end), so it lies in [0, 4096) |
| Learning.RadOf | src/neuquant.js:229-233 | rad is never 1; it is 0 exactly when the radius is below 128, and rad * 64 never exceeds the radius |
| Learning.NextRadius | src/neuquant.js:277 | the radius decay keeps a non-negative radius non-negative and never increases it |
| Learning.RadNeverGrows | src/neuquant.js:277-282 | rad never increases when the radius decays, and once 0 it stays 0 |
| Learning.RadWithinRadpower | src/neuquant.js:229-237 | rad never exceeds netsize >> 3, the length of radpower |
| Learning.Decay | src/neuquant.js:275-287 | after every delta-th sample the radius decays and rad is recomputed from it; otherwise the state is unchanged; the network, counters and pix never change here |
| Learning.DecayCountsMultiples | src/neuquant.js:275 | counted from the loop's start, alpha has decayed once per multiple of \|delta\| among the samples drawn |
| Learning.SmallNetworksHaveNoNeighbourhood | src/neuquant.js:229-233 | a network of fewer than 16 entries never moves neighbours |
| Learning.NeighLoop | src/neuquant.js:123-143 | the while loop moves each position walked upward from j and downward from k once, weighted by its distance from the winner |
| Learning.AlterNeigh | src/neuquant.js:119-144 | the winner is untouched; exactly the neighbourhood positions move, each lies in the network at distance 1..rad-1, and that distance indexes radpower |
| Learning.NeighbourhoodSymmetricAwayFromStart | src/neuquant.js:120-127 | when the winner is at least rad from the start, the neighbourhood is every position at distance 1..rad-1 |
| Learning.NeighbourhoodTruncatedNearStart | src/neuquant.js:120-137 | near the start the lower bound is reflected: with radius 4 at position 1 only positions 2..4 move, and with radius 7 at position 5 the positions below the winner that move are 3 and 4 |
| Learning.TrainStep | src/neuquant.js:261-287 | one pass moves the winner with the current alpha, moves exactly the neighbourhood positions (while rad is non-zero) with their distance to the winner and leaves every other entry as it was; it takes the contest's counters, advances pix along the stride, counts a decay after every delta-th sample and never grows the radius |
| Learning.Pass | src/neuquant.js:256-287 | one pass of the loop fails exactly when the contest over the sample at pix has no winner; otherwise it keeps the network's size and leaves pix at the next stride position, the decay count at (i + 1) / \|delta\| and rad within radpower |
| Learning.LearnFrom | src/neuquant.js:255-288 | the sample loop, from a state whose pix is the i-th stride position and whose decay count is i / \|delta\|, keeps the sizes of network, freq and bias, fails only when a contest finds no winner, and on success ends with all count samples drawn: pix at the count-th stride position and count / \|delta\| decays |
| Learning.LoopDelta | src/neuquant.js:271-273 | the loop's delta is never 0, and it is learn's delta whenever that is non-zero |
| Learning.Start | src/neuquant.js:226-229 | the loop starts from the engine's own network, freq and bias, with pix at the start of the buffer, no decay yet and rad within radpower, which is the state the loop demands before sample 0 |
| Learning.Learn | src/neuquant.js:220-289 | learning succeeds exactly when the sample loop from the start state succeeds, and then the engine's network, freq and bias are the ones that loop ends with; it keeps the engine valid, changes nothing but the network, the counters and samplefac, and leaves samplefac 1 exactly for short buffers or samplefac 1 |
| Learning.FreshNetworkIsTrained | src/neuquant.js:96-98 | every channel of a fresh engine's network lies in the trained range [0, 4096) |
| Learning.TrainStepKeepsTrained | src/neuquant.js:260-264 | a pass keeps every entry in the trained range when the update does so for a single entry |
| Learning.LearnFromStep | src/neuquant.js:255-288 | after a pass with a winner the loop continues from the next state, and that state again meets the loop's demands: pix at the next stride position inside the buffer, decays counted per multiple of delta, rad within radpower |
| Learning.LearnFromSucceeds | src/neuquant.js:255-288 | from a network in the trained range, every remaining contest has a winner and the loop succeeds |
| Learning.LearnSucceeds | src/neuquant.js:220-289 | learn succeeds on a valid engine in the trained range when the update keeps entries in that range |
| Reorganise.Unbias | src/neuquant.js:106-108 | for a channel in [0, 2^31), `x >>= netbiasshift` leaves its sixteenth rounded down |
| Reorganise.UnbiasNet | src/neuquant.js:104-111 | entry i gets tag i, and each channel of a trained entry becomes that channel's sixteenth rounded down, a byte |
| Reorganise.SmallestFrom | src/neuquant.js:185-194 | the scan finds the first entry with the least green from i on |
| Reorganise.Swap | src/neuquant.js:197-202 | exchanging two entries changes exactly those two positions |
| Reorganise.PlaceSmallest | src/neuquant.js:185-202 | a pass leaves positions before i alone and brings to i a green no larger than any at or after i |
| Reorganise.InxFrom | src/neuquant.js:182-217 | the passes from i on keep the network's length and, from a 256-slot table, leave a 256-slot index |
| Reorganise.Inx | src/neuquant.js:178-218 | the reference reorganisation keeps the network's length and yields 256 index slots |
| Reorganise.InxSorts | src/neuquant.js:182-212 | the reorganised network is a permutation of the input and is sorted by green |
| Reorganise.InxFromSorts | src/neuquant.js:182-212 | from any sorted prefix on, the remaining passes yield a sorted permutation |
| Reorganise.PlaceSmallestSorts | src/neuquant.js:185-202 | one pass extends the sorted prefix by one entry |
| Reorganise.PlaceSmallestPermutes | src/neuquant.js:197-202 | one pass permutes the entries |
| Reorganise.InxIndexBounds | src/neuquant.js:204-217 | every green index slot points at a position of the network |
| Reorganise.InxFromReplays | src/neuquant.js:182-217 | the passes from i on leave positions before i alone, and the index they build is the green bookkeeping replayed over the final network |
| Reorganise.NoteGreenIndexes | src/neuquant.js:204-211 | over a green-sorted network, noting the green at i keeps every closed run's slot pointing at an entry of that green |
| Reorganise.FinishIndexes | src/neuquant.js:214-217 | closing the last run makes the index sound: each green present points at an entry of that green, and each green above the largest points at maxnetpos |
| Reorganise.IndexFromGreens | src/neuquant.js:204-217 | the bookkeeping replayed over a sorted network, from any sound intermediate state, ends with a sound index |
| Reorganise.InxIndexesGreens | src/neuquant.js:204-217 | netindex of the reorganised network is sound: each green present points at an entry of that green, and each green above the largest points at the last position |
| Reorganise.InxIsNotStable | src/neuquant.js:185-202 | two equally green entries can come out in the opposite order |
| Reorganise.SelectSmallest | src/neuquant.js:185-194 | the inner loop returns the first least-green position from i and its green value |
| Reorganise.FillRun | src/neuquant.js:206-217 | the fill loops set exactly the slots lo..hi-1 |
| Reorganise.NoteGreenRun | src/neuquant.js:204-211 | a new green value closes the previous run at the midpoint of its positions and fills the skipped values with i; a repeated value changes nothing |
| Reorganise.FinishRun | src/neuquant.js:214-217 | the last run closes at the midpoint with maxnetpos and every larger green value gets maxnetpos |
| Reorganise.InxBuild | src/neuquant.js:178-218 | the engine's loop computes the reference reorganisation; its result is a sorted permutation with 256 index slots inside the network, and each green present, or above the largest, is indexed soundly |
| Reorganise.GetColorMap | src/neuquant.js:297-312 | the colour map has three bytes per entry |
| Reorganise.TagIndex | src/neuquant.js:301-303 | every slot of the tag index names a network position, whatever the tags |
| Reorganise.TagIndexInverts | src/neuquant.js:301-303 | when the tags are a permutation, slot t of the tag index is the position holding tag t |
| Reorganise.ColorMapFollowsTags | src/neuquant.js:301-310 | the colour map holds the entry with tag t at slot t, each channel masked to a byte |
| Reorganise.PaletteInOriginalOrder | src/neuquant.js:291-312 | after de-biasing and sorting, palette slot t holds the channels of the entry trained at position t |
| Reorganise.UnbiasedTagsPermuted | src/neuquant.js:197-202 | after sorting, the tags are a permutation of 0..netsize-1 and each entry is the de-biased entry its tag names |
| Reorganise.BuildColorMap | src/neuquant.js:291-295 | fails exactly when learning fails; otherwise gives netsize entries, sorted by green, whose tags are a permutation and each of which is the de-biased trained entry its tag names, with an index inside the network |
| MemoKey.OrOfShiftedBytes | src/helpers.js:39 | on 32-bit words the or of the shifted channels is their base-256 sum |
| MemoKey.Key | src/helpers.js:39 | the memo key of a colour is a 24-bit value |
| MemoKey.UnpackKey | src/helpers.js:39 | the memo key of a colour decodes to that colour |
| MemoKey.KeyOfUnpack | src/helpers.js:39 | every 24-bit key is the key of the colour it decodes to |
| MemoKey.KeyInjective | src/helpers.js:39-45 | two colours share a memo key exactly when they are the same colour |
| Helpers.SqDist | src/helpers.js:8-11 | the squared distance between two byte colours is below 256^3 |
| Helpers.ClosestFrom | src/helpers.js:7-20 | the scan from entry k on returns 0 for an empty palette and otherwise the first entry with the least squared distance |
| Helpers.FindClosest | src/helpers.js:3-23 | an empty palette gives 0; otherwise the result is the first entry with the least squared distance |
| Helpers.ExactColourIsFound | src/helpers.js:3-23 | looking up an entry's own colour finds its first occurrence |
| Helpers.ZeroDistanceIsSameColour | src/helpers.js:8-11 | distance 0 means the entry has exactly that colour |
| Helpers.MemoHit | src/helpers.js:41-42 | a memo entry for a key is the closest entry for that key's colour |
| Helpers.MemoAdd | src/helpers.js:44 | storing the closest entry under a colour's key keeps the memo exact |
| Helpers.MapPixels | src/helpers.js:31-49 | the reference index buffer has one byte per complete pixel; its contents are tied to findClosest by Helpers.IndicesNameEntries and reached by Helpers.Indexed |
| Helpers.Indexed | src/helpers.js:31-49 | the memoised loop gives one index per whole pixel, each the low byte of the closest entry to that pixel |
| Helpers.IndicesNameEntries | src/helpers.js:31-49 | for a palette of at most 256 entries, each index names a palette entry and equals the closest one |
| Helpers.Palette | src/helpers.js:25-29 | an option error stops the pipeline with that error, and after valid options the only error is a contest without winner; success gives 3 * netsize bytes |
| Helpers.PaletteSucceeds | src/helpers.js:25-29 | with options in range, the only errors of the pipeline are the option checks: it always yields a palette when the update keeps entries in the trained range |
| Helpers.PaletteFollowsTraining | src/helpers.js:25-29 | with options in range the palette exists exactly when training succeeds, and then slot t holds entry t of the trained network, de-biased and masked to bytes |
| Helpers.Quantize | src/helpers.js:51-59 | succeeds exactly when the palette does; on success the indices are those `indexed` gives for that palette, each naming one of its netsize entries |

## Left out

- The floating-point update of `altersingle` and `alterneigh` (division by
  `initalpha` and `alpharadbias`) is the parameter `pull`. The values of
  alpha and of the radpower weights are not computed. Each call records
  only how many decays have happened and which radpower index is used.
- `radius` is an exact rational. The code's Float64 division
  `radius / radiusdec` rounds, and the model does not.
- Options are whole numbers with defaults (netsize 256, samplefac 10,
  ncycles 100). The model does not cover `assign` copying arbitrary keys
  onto the engine, including an option named `pixels` that would replace
  the buffer, nor non-integer, NaN or missing option values. An `ncycles`
  of 0 is covered: `delta` is then 0 and forced to 1, as in the code.
- Buffers are sequences of bytes. The training loop reads a byte past the
  end as `undefined & 0xff`, which is 0, and so does the model. In
  `indexed`, a trailing partial pixel is looked up with NaN channels, but
  its index would be stored past the end of the output Buffer, so the
  model leaves it out.
- Network channels and contest distances are exact reals. The code rounds
  the ramp division `(i << 12) / netsize` (`src/neuquant.js:97`) and the
  distance sums (`src/neuquant.js:155`, `src/neuquant.js:161`) in Float64,
  so near-ties between entries can resolve differently in the code.
- `Learning.Learn`: a contest with no winner is an error result. The code
  would index the network at -1 and throw a TypeError. That error is proved
  unreachable (`Learning.LearnSucceeds`, `Helpers.PaletteSucceeds`) under
  the hypothesis `Learning.KeepsTrainedRange`: the update moves an entry
  toward an in-range sample without leaving [0, 4096). The engine's
  altersingle and alterneigh have that shape, with alpha at most initalpha
  and radpower[m] at most alpharadbias. The hypothesis is assumed, not
  proved, because the update itself is not modelled.
- `MemoKey.Key`: the key is the integer `r * 65536 + g * 256 + b`. That it
  equals the or of the shifted bytes is proved on 32-bit words
  (`MemoKey.OrOfShiftedBytes`), not on JavaScript numbers.
- `Reorganise.GetColorMap` and `Helpers.Indexed` store into Buffers. A
  Buffer masks each store to a byte and ignores stores out of range; the
  model applies the mask explicitly.
- `Reorganise.InxBuild`: the slot of a green that is absent from the
  network, but below the largest green, holds the position where the next
  present green's run starts. The model computes that slot but states
  nothing about it; only present greens and greens above the largest are
  characterised (`Reorganise.GreenIndexSound`).
- `Learning.Delta`: for a negative `ncycles` only the sign of delta is
  stated, and for buffers of 2^31 bytes or more nothing is stated about
  its value; the body still computes the truncation and the 32-bit wrap.
- Streams, the build configuration and the test fixtures of the repository
  are not part of this model.

=== FILE: competition.dfy ===
/** The per-sample contest: the bias-adjusted winner that training moves, the
    plain-distance nearest entry that earns the frequency boost, and the
    decay of every entry's frequency into its bias. */
module Competition {
  import opened JsNumbers
  import opened NeuQuant

  /** `~(1 << 31)`, the initial best distance of both scans. */
  const NoBound: real := 2147483647.0

  /** A training sample: three pixel bytes shifted left by NetBiasShift. */
  datatype Sample = Sample(b: int, g: int, r: int)

  /** The contest's visible effects: the returned winner (-1 when no entry
      came in below NoBound) and the updated counter arrays. */
  datatype Outcome = Outcome(winner: int, freq: seq<int>, bias: seq<int>)

  function Abs(x: real): real { if x < 0.0 then -x else x }

  /** Manhattan distance in channel space. */
  function Dist(n: Neuron, s: Sample): real
  {
    Abs(n.b - s.b as real) + Abs(n.g - s.g as real) + Abs(n.r - s.r as real)
  }

  /** `bias[i] >> (intbiasshift - netbiasshift)`, on the 32-bit view of the counter. */
  function BiasTerm(biasWord: int): int
  {
    Shr(biasWord, IntBiasShift - NetBiasShift)
  }

  function Distances(net: seq<Neuron>, s: Sample): (ds: seq<real>)
    ensures |ds| == |net|
  {
    seq(|net|, i requires 0 <= i < |net| => Dist(net[i], s))
  }

  function BiasedDistances(net: seq<Neuron>, bias: seq<int>, s: Sample): (ds: seq<real>)
    requires |bias| == |net|
    ensures |ds| == |net|
  {
    seq(|net|, i requires 0 <= i < |net| => Dist(net[i], s) - BiasTerm(bias[i]) as real)
  }

  /** pos is what a strict-`<` scan of ds[..upto] started at (NoBound, -1)
      holds: -1 if nothing is below NoBound, otherwise the first position of
      the minimum. */
  ghost predicate FirstMinBelow(ds: seq<real>, upto: nat, pos: int)
    requires upto <= |ds|
  {
    || (pos == -1 && forall k :: 0 <= k < upto ==> ds[k] >= NoBound)
    || (&& 0 <= pos < upto
        && ds[pos] < NoBound
        && (forall k :: 0 <= k < upto ==> ds[pos] <= ds[k])
        && (forall k :: 0 <= k < pos ==> ds[pos] < ds[k]))
  }

  /** The scan loop of `contest`, one position per call. */
  function ScanFrom(ds: seq<real>, i: nat, best: real, bestpos: int): (pos: int)
    requires i <= |ds|
    requires FirstMinBelow(ds, i, bestpos)
    requires best == if bestpos == -1 then NoBound else ds[bestpos]
    ensures FirstMinBelow(ds, |ds|, pos)
    decreases |ds| - i
  {
    if i == |ds| then bestpos
    else if ds[i] < best then ScanFrom(ds, i + 1, ds[i], i)
    else ScanFrom(ds, i + 1, best, bestpos)
  }

  function FirstMin(ds: seq<real>): (pos: int)
    ensures FirstMinBelow(ds, |ds|, pos)
  {
    ScanFrom(ds, 0, NoBound, -1)
  }

  /** bestpos of `contest`: the first entry nearest to the sample, or -1 when
      no distance is below NoBound. */
  function Nearest(net: seq<Neuron>, s: Sample): (pos: int)
    ensures FirstMinBelow(Distances(net, s), |net|, pos)
  {
    FirstMin(Distances(net, s))
  }

  /** bestbiaspos of `contest`: the first entry with the least bias-adjusted
      distance, or -1 when none is below NoBound. */
  function Winner(net: seq<Neuron>, bias: seq<int>, s: Sample): (pos: int)
    requires |bias| == |net|
    ensures FirstMinBelow(BiasedDistances(net, bias, s), |net|, pos)
  {
    FirstMin(BiasedDistances(net, bias, s))
  }

  /** `betafreq = freq[i] >> betashift`: for a counter below 2^31, a 1024th
      of it rounded down. */
  function BetaFreq(f: int): (bf: int)
    ensures 0 <= f < TwoTo31 ==> bf == f / 1024 && 0 <= bf <= f
  {
    ShareOfSmall(f);
    Shr(f, BetaShift)
  }

  lemma ShareOfSmall(f: int)
    ensures 0 <= f < TwoTo31 ==> Shr(f, BetaShift) == f / 1024 && 0 <= Shr(f, BetaShift) <= f
  {
    Pow2Values();
    if 0 <= f < TwoTo31 {
      ShrOfSmall(f, BetaShift);
    }
  }

  /** `freq[i] -= betafreq` stored back into the Uint32Array. */
  function DecayedFreq(f: int): (nf: int)
    ensures 0 <= nf < TwoTo32
    ensures Congruent(f - BetaFreq(f), nf)
    ensures 0 <= f < TwoTo31 ==> nf == f - f / 1024
  {
    ToUint32(f - BetaFreq(f))
  }

  /** `bias[i] += betafreq << gammashift` stored back into the Uint32Array:
      the bias gains 1024 * betafreq, modulo 2^32. */
  function RaisedBias(bias: int, f: int): (nb: int)
    ensures 0 <= nb < TwoTo32
    ensures Congruent(nb, bias + 1024 * BetaFreq(f))
  {
    var bf := BetaFreq(f);
    var shl := Shl(bf, GammaShift);
    ShlGammaCongruent(bf);
    CongruentAdd(bias, bias, shl, 1024 * bf);
    CongruentSym(bias + shl, ToUint32(bias + shl));
    CongruentTrans(ToUint32(bias + shl), bias + shl, bias + 1024 * bf);
    ToUint32(bias + shl)
  }

  /** Stores into a Uint32Array at an index outside the array are ignored. */
  function Boost(a: seq<int>, pos: int, delta: int): (r: seq<int>)
    ensures |r| == |a|
    ensures forall k :: 0 <= k < |a| && k != pos ==> r[k] == a[k]
    ensures 0 <= pos < |a| ==> 0 <= r[pos] < TwoTo32 && Congruent(r[pos], a[pos] + delta)
  {
    if 0 <= pos < |a| then a[pos := ToUint32(a[pos] + delta)] else a
  }

  function Contest(net: seq<Neuron>, freq: seq<int>, bias: seq<int>, s: Sample): (o: Outcome)
    requires |freq| == |net| && |bias| == |net|
    ensures |o.freq| == |net| && |o.bias| == |net|
    ensures FirstMinBelow(BiasedDistances(net, bias, s), |net|, o.winner)
    ensures forall i :: 0 <= i < |net| ==> 0 <= o.freq[i] < TwoTo32 && 0 <= o.bias[i] < TwoTo32
  {
    var nearest := Nearest(net, s);
    var decayed := seq(|net|, i requires 0 <= i < |net| => DecayedFreq(freq[i]));
    var raised := seq(|net|, i requires 0 <= i < |net| => RaisedBias(bias[i], freq[i]));
    Outcome(Winner(net, bias, s), Boost(decayed, nearest, Beta), Boost(raised, nearest, -BetaGamma))
  }

  // ----- Properties -----

  predicate Congruent(a: int, b: int) { (a - b) % TwoTo32 == 0 }

  lemma CongruentTrans(a: int, b: int, c: int)
    requires Congruent(a, b) && Congruent(b, c)
    ensures Congruent(a, c)
  {
    var p := (a - b) / TwoTo32;
    var q := (b - c) / TwoTo32;
    assert a - b == TwoTo32 * p;
    assert b - c == TwoTo32 * q;
    assert a - c == TwoTo32 * (p + q);
  }

  lemma CongruentScale(a: int, b: int)
    requires Congruent(a, b)
    ensures Congruent(1024 * a, 1024 * b)
  {
    var p := (a - b) / TwoTo32;
    assert a - b == TwoTo32 * p;
    assert 1024 * a - 1024 * b == TwoTo32 * (1024 * p);
  }

  lemma CongruentAdd(a: int, b: int, c: int, d: int)
    requires Congruent(a, b) && Congruent(c, d)
    ensures Congruent(a + c, b + d)
  {
    var p := (a - b) / TwoTo32;
    var q := (c - d) / TwoTo32;
    assert a - b == TwoTo32 * p;
    assert c - d == TwoTo32 * q;
    assert (a + c) - (b + d) == TwoTo32 * (p + q);
  }

  lemma CongruentSameWord(a: int, b: int)
    requires Congruent(a, b)
    ensures a % TwoTo32 == b % TwoTo32
  {
    var p := (a - b) / TwoTo32;
    assert a == b + TwoTo32 * p;
  }

  /** The weighted sum `bias + (freq << gammashift)` of one entry, modulo 2^32. */
  function Ledger(bias: int, freq: int): int { (bias + 1024 * freq) % TwoTo32 }

  lemma CongruentSym(a: int, b: int)
    requires Congruent(a, b)
    ensures Congruent(b, a)
  {
    var p := (a - b) / TwoTo32;
    assert a - b == TwoTo32 * p;
    assert b - a == TwoTo32 * (-p);
  }

  /** `x << gammashift` agrees with x * 1024 modulo 2^32. */
  lemma ShlGammaCongruent(x: int)
    ensures Congruent(Shl(x, GammaShift), 1024 * x)
  {
    Pow2Values();
    var t := ToInt32(x);
    assert Congruent(x, t);
    CongruentScale(x, t);
    assert Congruent(t * 1024, Shl(x, GammaShift));
    CongruentTrans(1024 * x, 1024 * t, Shl(x, GammaShift));
    CongruentSym(1024 * x, Shl(x, GammaShift));
  }

  /** One entry's decay keeps its ledger: what leaves freq arrives in bias. */
  lemma {:induction false} DecayKeepsLedger(bias: int, f: int)
    ensures Ledger(RaisedBias(bias, f), DecayedFreq(f)) == Ledger(bias, f)
  {
    Pow2Values();
    MovedShareKeepsLedger(bias, RaisedBias(bias, f), f, BetaFreq(f), DecayedFreq(f));
  }

  /** Moving a share bf of f into the bias, at 1024 to one, keeps the ledger
      when the new bias and the new freq agree with it modulo 2^32. */
  lemma MovedShareKeepsLedger(bias: int, nb: int, f: int, bf: int, nf: int)
    requires Congruent(nb, bias + 1024 * bf) && Congruent(f - bf, nf)
    ensures Ledger(nb, nf) == Ledger(bias, f)
  {
    CongruentSym(f - bf, nf);
    CongruentScale(nf, f - bf);
    CongruentAdd(nb, bias + 1024 * bf, 1024 * nf, 1024 * (f - bf));
    assert (bias + 1024 * bf) + 1024 * (f - bf) == bias + 1024 * f;
    CongruentSameWord(nb + 1024 * nf, bias + 1024 * f);
  }

  /** The boost keeps the ledger too: beta added to freq is betagamma taken from bias. */
  lemma {:induction false} BoostKeepsLedger(bias: int, f: int)
    ensures Ledger(ToUint32(bias - BetaGamma), ToUint32(f + Beta)) == Ledger(bias, f)
  {
    assert Congruent(bias - BetaGamma, ToUint32(bias - BetaGamma));
    CongruentSym(bias - BetaGamma, ToUint32(bias - BetaGamma));
    assert Congruent(f + Beta, ToUint32(f + Beta));
    CongruentSym(f + Beta, ToUint32(f + Beta));
    CongruentScale(ToUint32(f + Beta), f + Beta);
    CongruentAdd(ToUint32(bias - BetaGamma), bias - BetaGamma, 1024 * ToUint32(f + Beta), 1024 * (f + Beta));
    assert (bias - BetaGamma) + 1024 * (f + Beta) == bias + 1024 * f;
    CongruentSameWord(ToUint32(bias - BetaGamma) + 1024 * ToUint32(f + Beta), bias + 1024 * f);
  }

  /** The fairness mechanism conserves, entry by entry and modulo 2^32, the
      sum bias + 1024 * freq: decay moves freq into bias, and the boost of
      the nearest entry moves bias back into freq at the same rate. */
  lemma {:induction false} ContestKeepsLedger(net: seq<Neuron>, freq: seq<int>, bias: seq<int>, s: Sample, i: int)
    requires |freq| == |net| && |bias| == |net|
    requires 0 <= i < |net|
    ensures var o := Contest(net, freq, bias, s);
      Ledger(o.bias[i], o.freq[i]) == Ledger(bias[i], freq[i])
  {
    var o := Contest(net, freq, bias, s);
    var nearest := Nearest(net, s);
    DecayKeepsLedger(bias[i], freq[i]);
    if i == nearest {
      BoostKeepsLedger(RaisedBias(bias[i], freq[i]), DecayedFreq(freq[i]));
    }
  }

  /** Only the nearest entry by plain distance gains frequency; every other
      entry with a counter below 2^31 loses freq >> 10 of it. */
  lemma ContestBoostsOnlyNearest(net: seq<Neuron>, freq: seq<int>, bias: seq<int>, s: Sample, i: int)
    requires |freq| == |net| && |bias| == |net|
    requires 0 <= i < |net| && 0 <= freq[i] < TwoTo31
    ensures var o := Contest(net, freq, bias, s);
      && (i != Nearest(net, s) ==> o.freq[i] == freq[i] - freq[i] / 1024)
      && (i == Nearest(net, s) ==> o.freq[i] == freq[i] - freq[i] / 1024 + Beta)
  {
    Pow2Values();
    ShrOfSmall(freq[i], BetaShift);
  }

  /** The entry that is moved and the entry that is boosted can differ: an
      entry whose bias has grown wins the contest although another is nearer. */
  lemma WinnerNeedNotBeNearest()
    ensures var net := [Neuron(16.0, 16.0, 16.0, 0.0), Neuron(32.0, 32.0, 32.0, 0.0)];
      var s := Sample(0, 0, 0);
      var bias := [0, 409600];
      Nearest(net, s) == 0 && Winner(net, bias, s) == 1
  {
    var net := [Neuron(16.0, 16.0, 16.0, 0.0), Neuron(32.0, 32.0, 32.0, 0.0)];
    var s := Sample(0, 0, 0);
    var bias := [0, 409600];
    Pow2Values();
    var ds := Distances(net, s);
    assert ds[0] == Dist(net[0], s) == 48.0;
    assert ds[1] == Dist(net[1], s) == 96.0;
    assert FirstMinBelow(ds, 2, Nearest(net, s));
    var bs := BiasedDistances(net, bias, s);
    assert bs[0] == Dist(net[0], s) - BiasTerm(0) as real == 48.0;
    assert bs[1] == Dist(net[1], s) - BiasTerm(409600) as real == -4.0;
    assert FirstMinBelow(bs, 2, Winner(net, bias, s));
  }

  /** With channels and samples in the trained range [0, 4096), some entry is
      always below NoBound, so a non-empty network always yields a winner. */
  lemma {:induction false} ContestHasWinner(net: seq<Neuron>, freq: seq<int>, bias: seq<int>, s: Sample)
    requires |freq| == |net| && |bias| == |net| && |net| > 0
    requires forall i :: 0 <= i < |net| ==> InTrainedRange(net[i])
    requires 0 <= s.b < 4096 && 0 <= s.g < 4096 && 0 <= s.r < 4096
    ensures 0 <= Contest(net, freq, bias, s).winner < |net|
  {
    var bs := BiasedDistances(net, bias, s);
    Pow2Values();
    assert BiasTerm(bias[0]) >= -TwoTo31 / 4096;
    assert Dist(net[0], s) < 3.0 * 4096.0;
    assert bs[0] < NoBound;
  }

  predicate InTrainedRange(n: Neuron)
  {
    0.0 <= n.b < 4096.0 && 0.0 <= n.g < 4096.0 && 0.0 <= n.r < 4096.0
  }
}

=== FILE: helpers.dfy ===
/** The nearest-colour mapper and the two entry points built on the engine:
    `palette` trains a network and emits its colour map, `indexed` maps every
    pixel to its closest palette entry through a memo, and `quantize` does
    both. */
module Helpers {
  import opened JsNumbers
  import opened NeuQuant
  import Learning
  import Reorganise
  import opened MemoKey

  // ----- findClosest -----

  /** The initial best distance: above every distance between byte colours. */
  const NoDistance: int := 256 * 256 * 256

  /** Number of complete (r, g, b) entries in a palette; a trailing partial
      entry reads `undefined`, gets a NaN distance and is never chosen. */
  function Entries(palette: seq<Byte>): nat
  {
    |palette| / 3
  }

  /** Squared Euclidean distance from (r, g, b) to palette entry k. */
  function SqDist(palette: seq<Byte>, k: nat, r: Byte, g: Byte, b: Byte): (d: int)
    requires k < Entries(palette)
    ensures 0 <= d < NoDistance
  {
    var dr := r - palette[3 * k];
    var dg := g - palette[3 * k + 1];
    var db := b - palette[3 * k + 2];
    SquareOfByteDifference(dr);
    SquareOfByteDifference(dg);
    SquareOfByteDifference(db);
    dr * dr + dg * dg + db * db
  }

  lemma SquareOfByteDifference(x: int)
    requires -255 <= x <= 255
    ensures 0 <= x * x <= 65025
  {
    var a := if x < 0 then -x else x;
    assert x * x == a * a;
    SquareBelow(a);
  }

  lemma SquareBelow(a: int)
    requires 0 <= a <= 255
    ensures 0 <= a * a <= 65025
  {
    MulBelow(a, a, 255);
    MulBelow(255, a, 255);
  }

  /** m * x <= m * y for m >= 0 and x <= y, by induction on m. */
  lemma {:induction false} MulBelow(m: nat, x: int, y: int)
    requires x <= y
    ensures m * x <= m * y
  {
    if m > 0 {
      MulBelow(m - 1, x, y);
      assert m * x == (m - 1) * x + x;
      assert m * y == (m - 1) * y + y;
    }
  }

  /** What the scan has established before entry k: either nothing is seen
      yet, or minpos is the first entry with the least distance so far. */
  ghost predicate ScanSoFar(palette: seq<Byte>, r: Byte, g: Byte, b: Byte, k: nat, mind: int, minpos: nat)
    requires k <= Entries(palette)
  {
    if k == 0 then mind == NoDistance && minpos == 0
    else
      && minpos < k
      && mind == SqDist(palette, minpos, r, g, b)
      && (forall q :: 0 <= q < k ==> mind <= SqDist(palette, q, r, g, b))
      && (forall q :: 0 <= q < minpos ==> mind < SqDist(palette, q, r, g, b))
  }

  /** The scan loop of findClosest from entry k on. */
  function ClosestFrom(palette: seq<Byte>, r: Byte, g: Byte, b: Byte, k: nat, mind: int, minpos: nat): (pos: nat)
    requires k <= Entries(palette) && ScanSoFar(palette, r, g, b, k, mind, minpos)
    ensures Entries(palette) == 0 ==> pos == 0
    ensures Entries(palette) > 0 ==> pos < Entries(palette)
    ensures Entries(palette) > 0 ==> forall q :: 0 <= q < Entries(palette) ==>
      SqDist(palette, pos, r, g, b) <= SqDist(palette, q, r, g, b)
    ensures Entries(palette) > 0 ==> forall q :: 0 <= q < pos ==>
      SqDist(palette, pos, r, g, b) < SqDist(palette, q, r, g, b)
    decreases Entries(palette) - k
  {
    if k == Entries(palette) then minpos
    else
      var d := SqDist(palette, k, r, g, b);
      if d < mind then ClosestFrom(palette, r, g, b, k + 1, d, k)
      else ClosestFrom(palette, r, g, b, k + 1, mind, minpos)
  }

  /** findClosest: the first palette entry at least squared distance from
      (r, g, b), or 0 for a palette without a complete entry. */
  function FindClosest(palette: seq<Byte>, r: Byte, g: Byte, b: Byte): (k: nat)
    ensures Entries(palette) == 0 ==> k == 0
    ensures Entries(palette) > 0 ==> k < Entries(palette)
    ensures Entries(palette) > 0 ==> forall q :: 0 <= q < Entries(palette) ==>
      SqDist(palette, k, r, g, b) <= SqDist(palette, q, r, g, b)
    ensures Entries(palette) > 0 ==> forall q :: 0 <= q < k ==>
      SqDist(palette, k, r, g, b) < SqDist(palette, q, r, g, b)
  {
    ClosestFrom(palette, r, g, b, 0, NoDistance, 0)
  }

  /** An exact palette colour is always found, at its first occurrence. */
  lemma ExactColourIsFound(palette: seq<Byte>, t: nat)
    requires t < Entries(palette)
    requires forall q :: 0 <= q < t ==> palette[3 * q .. 3 * q + 3] != palette[3 * t .. 3 * t + 3]
    ensures FindClosest(palette, palette[3 * t], palette[3 * t + 1], palette[3 * t + 2]) == t
  {
    var r, g, b := palette[3 * t], palette[3 * t + 1], palette[3 * t + 2];
    var k := FindClosest(palette, r, g, b);
    assert palette[3 * t .. 3 * t + 3] == [r, g, b];
    assert SqDist(palette, t, r, g, b) == 0;
    ZeroDistanceIsSameColour(palette, k, r, g, b);
  }

  lemma ZeroDistanceIsSameColour(palette: seq<Byte>, k: nat, r: Byte, g: Byte, b: Byte)
    requires k < Entries(palette)
    ensures SqDist(palette, k, r, g, b) == 0 ==> palette[3 * k .. 3 * k + 3] == [r, g, b]
  {
    var dr := r - palette[3 * k];
    var dg := g - palette[3 * k + 1];
    var db := b - palette[3 * k + 2];
    SquareOfByteDifference(dr);
    SquareOfByteDifference(dg);
    SquareOfByteDifference(db);
    SquareIsZero(dr);
    SquareIsZero(dg);
    SquareIsZero(db);
  }

  lemma SquareIsZero(x: int)
    ensures x * x == 0 ==> x == 0
  {
    if x > 0 {
      assert x * x >= x;
    } else if x < 0 {
      assert x * x == (-x) * (-x);
      assert (-x) * (-x) >= -x;
    }
  }

  // ----- indexed -----

  /** findClosest of pixel j of the buffer. */
  function ClosestOfPixel(pixels: seq<Byte>, palette: seq<Byte>, j: int): nat
    requires 0 <= j < |pixels| / 3
  {
    FindClosest(palette, pixels[3 * j], pixels[3 * j + 1], pixels[3 * j + 2])
  }

  /** The index buffer without the memo: entry j is the closest palette
      entry of pixel j, stored into a byte. The buffer holds one byte per
      complete pixel; a trailing partial pixel would be stored past its end. */
  function MapPixels(pixels: seq<Byte>, palette: seq<Byte>): (out: seq<Byte>)
    ensures |out| == |pixels| / 3
  {
    seq(|pixels| / 3, j requires 0 <= j < |pixels| / 3 => LowByte(ClosestOfPixel(pixels, palette, j)))
  }

  /** Every memo entry holds findClosest of the colour its key stands for. */
  ghost predicate MemoIsExact(memo: map<int, int>, palette: seq<Byte>)
  {
    forall k :: k in memo ==>
      && 0 <= k < 0x100_0000
      && memo[k] == FindClosest(palette, Unpack(k).r, Unpack(k).g, Unpack(k).b)
  }

  /** A memo hit is findClosest of the colour looked up. */
  lemma MemoHit(memo: map<int, int>, palette: seq<Byte>, r: Byte, g: Byte, b: Byte)
    requires MemoIsExact(memo, palette) && Key(r, g, b) in memo
    ensures memo[Key(r, g, b)] == FindClosest(palette, r, g, b)
  {
    UnpackKey(r, g, b);
  }

  /** Recording findClosest under a colour's key keeps the memo exact. */
  lemma MemoAdd(memo: map<int, int>, palette: seq<Byte>, r: Byte, g: Byte, b: Byte)
    requires MemoIsExact(memo, palette)
    ensures MemoIsExact(memo[Key(r, g, b) := FindClosest(palette, r, g, b)], palette)
  {
    UnpackKey(r, g, b);
  }

  /** Extending a prefix of MapPixels by the index of the next pixel. */
  lemma MapPixelsExtend(pixels: seq<Byte>, palette: seq<Byte>, j: int)
    requires 0 <= j < |pixels| / 3
    ensures MapPixels(pixels, palette)[..j + 1]
            == MapPixels(pixels, palette)[..j] + [LowByte(FindClosest(palette, pixels[3 * j], pixels[3 * j + 1], pixels[3 * j + 2]))]
  {
    var want := MapPixels(pixels, palette);
    assert want[j] == LowByte(ClosestOfPixel(pixels, palette, j));
    assert want[..j + 1] == want[..j] + [want[j]];
  }

  /** indexed: maps every pixel through findClosest, remembering the answer
      per key. The memo never changes the result. */
  method Indexed(pixels: seq<Byte>, palette: seq<Byte>) returns (out: seq<Byte>)
    ensures out == MapPixels(pixels, palette)
    ensures |out| == |pixels| / 3
    ensures forall j :: 0 <= j < |out| ==>
      out[j] == LowByte(FindClosest(palette, pixels[3 * j], pixels[3 * j + 1], pixels[3 * j + 2]))
  {
    var memo: map<int, int> := map[];
    out := [];
    var j := 0;
    while j < |pixels| / 3
      invariant 0 <= j <= |pixels| / 3
      invariant out == MapPixels(pixels, palette)[..j]
      invariant MemoIsExact(memo, palette)
    {
      var r, g, b := pixels[3 * j], pixels[3 * j + 1], pixels[3 * j + 2];
      var k := Key(r, g, b);
      var v;
      if k in memo {
        v := memo[k];
        MemoHit(memo, palette, r, g, b);
      } else {
        v := FindClosest(palette, r, g, b);
        MemoAdd(memo, palette, r, g, b);
        memo := memo[k := v];
      }
      MapPixelsExtend(pixels, palette, j);
      out := out + [LowByte(v)];
      j := j + 1;
    }
    assert MapPixels(pixels, palette)[..j] == MapPixels(pixels, palette);
  }

  /** With at most 256 complete palette entries every index byte names one. */
  lemma IndicesNameEntries(pixels: seq<Byte>, palette: seq<Byte>, j: int)
    requires 0 < Entries(palette) <= 256 && 0 <= j < |pixels| / 3
    ensures MapPixels(pixels, palette)[j] < Entries(palette)
    ensures MapPixels(pixels, palette)[j] == FindClosest(palette, pixels[3 * j], pixels[3 * j + 1], pixels[3 * j + 2])
  {
    assert MapPixels(pixels, palette)[j] == LowByte(ClosestOfPixel(pixels, palette, j));
  }

  // ----- palette and quantize -----

  /** palette: construct the engine, train it, and emit its colour map. */
  function Palette(pixels: seq<Byte>, options: Options, pull: Learning.Pull): (r: Result<seq<Byte>>)
    ensures NewEngine(pixels, options).Err? ==> r == Err(NewEngine(pixels, options).error)
    ensures r.Ok? ==> NetsizeInRange(options.netsize) && SamplefacInRange(options.samplefac)
    ensures r.Ok? ==> |r.value| == 3 * options.netsize
    ensures NewEngine(pixels, options).Ok? && r.Err? ==> r.error == NoContestWinner
  {
    match NewEngine(pixels, options)
    case Err(x) => Err(x)
    case Ok(e) =>
      match Reorganise.BuildColorMap(e, pull)
      case Err(x) => Err(x)
      case Ok(trained) => Ok(Reorganise.GetColorMap(trained.network))
  }

  /** With options in range and an update that keeps entries in the trained
      range, the pipeline always yields a palette: the only errors are the
      constructor's option checks. */
  lemma PaletteSucceeds(pixels: seq<Byte>, options: Options, pull: Learning.Pull)
    requires NetsizeInRange(options.netsize) && SamplefacInRange(options.samplefac)
    requires Learning.KeepsTrainedRange(pull)
    ensures Palette(pixels, options, pull).Ok?
  {
    var e := NewEngine(pixels, options).value;
    Learning.FreshNetworkIsTrained(pixels, options);
    Learning.LearnSucceeds(e, pull);
  }

  /** Slot t of the palette is entry t of the trained network, de-biased and
      masked to a byte, whatever order inxbuild left the entries in. */
  lemma PaletteFollowsTraining(pixels: seq<Byte>, options: Options, pull: Learning.Pull, t: int, c: nat)
    requires NetsizeInRange(options.netsize) && SamplefacInRange(options.samplefac)
    requires 0 <= t < options.netsize && c < 3
    ensures NewEngine(pixels, options).Ok?
    ensures Palette(pixels, options, pull).Ok? <==> Learning.Learn(NewEngine(pixels, options).value, pull).Ok?
    ensures Palette(pixels, options, pull).Ok? ==>
      var learned := Learning.Learn(NewEngine(pixels, options).value, pull).value;
      Palette(pixels, options, pull).value[3 * t + c]
        == LowByte(Reorganise.Channel(Reorganise.UnbiasNet(learned.network)[t], c))
  {
    var e := NewEngine(pixels, options).value;
    if Learning.Learn(e, pull).Ok? {
      var learned := Learning.Learn(e, pull).value;
      Reorganise.PaletteInOriginalOrder(learned.network, t, c);
    }
  }

  datatype Quantized = Quantized(palette: seq<Byte>, indexed: seq<Byte>)

  /** quantize: the palette, and the pixels indexed against exactly it. */
  method Quantize(pixels: seq<Byte>, options: Options, pull: Learning.Pull) returns (r: Result<Quantized>)
    ensures r.Ok? <==> Palette(pixels, options, pull).Ok?
    ensures r.Err? ==> r.error == Palette(pixels, options, pull).error
    ensures r.Ok? ==> r.value.palette == Palette(pixels, options, pull).value
    ensures r.Ok? ==> |r.value.palette| == 3 * options.netsize && |r.value.indexed| == |pixels| / 3
    ensures r.Ok? ==> r.value.indexed == MapPixels(pixels, r.value.palette)
    ensures r.Ok? ==> forall j :: 0 <= j < |r.value.indexed| ==> r.value.indexed[j] < options.netsize
  {
    var p := Palette(pixels, options, pull);
    if p.Err? {
      return Err(p.error);
    }
    var indexed := Indexed(pixels, p.value);
    forall j | 0 <= j < |indexed|
      ensures indexed[j] < options.netsize
    {
      IndicesNameEntries(pixels, p.value, j);
    }
    r := Ok(Quantized(p.value, indexed));
  }
}

=== FILE: js_numbers.dfy ===
/** The slice of JavaScript number semantics the quantiser relies on: the
    32-bit conversions performed by the shift operators and by stores into
    typed arrays, truncation of a fractional value, and byte masking. */
module JsNumbers {

  const TwoTo31: int := 0x8000_0000
  const TwoTo32: int := 0x1_0000_0000

  /** A value that fits an unsigned byte (a `Buffer` element, a pixel channel). */
  type Byte = x: int | 0 <= x < 256

  /** ToUint32: the value a `Uint32Array` element holds after an integral store. */
  function ToUint32(x: int): (r: int)
    ensures 0 <= r < TwoTo32
    ensures (x - r) % TwoTo32 == 0
    ensures 0 <= x < TwoTo32 ==> r == x
  {
    x % TwoTo32
  }

  /** ToInt32: the signed 32-bit operand every shift and bitwise operator sees. */
  function ToInt32(x: int): (r: int)
    ensures -TwoTo31 <= r < TwoTo31
    ensures (x - r) % TwoTo32 == 0
    ensures -TwoTo31 <= x < TwoTo31 ==> r == x
  {
    var u := x % TwoTo32;
    if u >= TwoTo31 then u - TwoTo32 else u
  }

  /** Truncation toward zero, the first step of ToInt32 on a fractional value. */
  function Trunc(x: real): (n: int)
    ensures 0.0 <= x ==> 0 <= n && n as real <= x < n as real + 1.0
    ensures x < 0.0 ==> n <= 0 && n as real - 1.0 < x <= n as real
  {
    if x >= 0.0 then x.Floor else -((-x).Floor)
  }

  /** 2^s, the factor of a shift by s; positive, so a shift right may divide by it. */
  function Pow2(s: nat): (p: nat)
    ensures p >= 1
  {
    if s == 0 then 1 else 2 * Pow2(s - 1)
  }

  /** Shifting by a and then by b is shifting by a + b. */
  lemma {:induction false} Pow2Adds(a: nat, b: nat)
    ensures Pow2(a + b) == Pow2(a) * Pow2(b)
    decreases b
  {
    if b > 0 {
      Pow2Adds(a, b - 1);
      assert Pow2(a + b) == 2 * Pow2(a + b - 1);
      assert Pow2(a) * Pow2(b) == Pow2(a) * (2 * Pow2(b - 1));
    }
  }

  /** The powers of two behind the engine's shift constants. */
  lemma Pow2Values()
    ensures Pow2(4) == 16 && Pow2(6) == 64 && Pow2(8) == 256 && Pow2(10) == 1024 && Pow2(12) == 4096
  {
    assert Pow2(2) == 4;
    Pow2Adds(2, 2);
    Pow2Adds(4, 2);
    Pow2Adds(4, 4);
    Pow2Adds(4, 6);
    Pow2Adds(6, 6);
  }

  /** `x >> s`: arithmetic right shift of the 32-bit operand, i.e. floor division. */
  function Shr(x: int, s: nat): int
  {
    ToInt32(x) / Pow2(s)
  }

  /** `x << s`: the shifted 32-bit operand, wrapped back to 32 signed bits. */
  function Shl(x: int, s: nat): int
  {
    ToInt32(ToInt32(x) * Pow2(s))
  }

  /** `x & 0xff` on a 32-bit integral value: its low byte. */
  function LowByte(x: int): (r: Byte)
    ensures 0 <= x < 256 ==> r == x
    ensures (x - r) % 256 == 0
  {
    LowByteOfInt32(x);
    ToInt32(x) % 256
  }

  lemma LowByteOfInt32(x: int)
    ensures ToInt32(x) % 256 == x % 256
    ensures (x - x % 256) % 256 == 0
  {
    assert x - x % 256 == 256 * (x / 256);
    Mod256AddMultiple(0, x / 256);
    var u := x % TwoTo32;
    var q := x / TwoTo32;
    assert x == q * TwoTo32 + u;
    Mod256AddMultiple(u, q * 0x100_0000);
    if u >= TwoTo31 {
      Mod256AddMultiple(u - TwoTo32, 0x100_0000);
    }
  }

  /** Adding a multiple of 256 does not change the low byte. */
  lemma Mod256AddMultiple(a: int, k: int)
    ensures (a + 256 * k) % 256 == a % 256
  {
  }

  /** A non-negative value below 2^31 shifted right is plain floor division. */
  lemma ShrOfSmall(x: int, s: nat)
    requires 0 <= x < TwoTo31
    ensures Shr(x, s) == x / Pow2(s)
    ensures 0 <= Shr(x, s) <= x
  {
    assert ToInt32(x) == x;
    DivShrinks(x, Pow2(s));
  }

  lemma DivShrinks(x: int, d: int)
    requires 0 <= x && 1 <= d
    ensures 0 <= x / d <= x
  {
    var q := x / d;
    assert x == d * q + x % d;
    MulGrows(q, d);
  }

  lemma {:induction false} MulGrows(q: nat, d: nat)
    requires 1 <= d
    ensures q <= d * q
    decreases d
  {
    if d > 1 {
      MulGrows(q, d - 1);
      assert d * q == (d - 1) * q + q;
    }
  }
}

=== FILE: learning.dfy ===
/** The control structure of `learn`: how many samples are drawn, which
    buffer offsets they come from, when the neighbourhood radius shrinks and
    which entries each sample moves. The arithmetic that moves an entry
    toward a sample (Float64 division by alpha and radpower weights) is not
    part of this model: it is the parameter `pull`. */
module Learning {
  import opened JsNumbers
  import opened NeuQuant
  import opened Competition

  const Prime1: int := 499
  const Prime2: int := 491
  const Prime3: int := 487
  const Prime4: int := 503
  /** 3 * the largest of the four primes. */
  const MinPictureBytes: int := 1509

  /** What one call of the numeric update stands for: the winner's own move
      after `decays` decays of alpha, or a neighbour's move at distance m
      (weight radpower[m]) while the radius is rad. */
  datatype Influence = Single(decays: nat) | Neighbour(decays: nat, rad: nat, m: nat)

  /** The numeric update of altersingle and alterneigh, left abstract. */
  type Pull = (Neuron, Influence, Sample) -> Neuron

  function AbsInt(x: int): nat { if x < 0 then -x else x }

  function MinInt(a: int, b: int): int { if a < b then a else b }

  // ----- Sampling -----

  /** The byte stride of the sample walk. */
  function Stride(len: nat): (step: nat)
    ensures step % 3 == 0 && 3 <= step <= MinPictureBytes
    ensures len < MinPictureBytes <==> step == 3
    ensures len >= 3 ==> step <= len
    ensures step == 3 * Prime2 ==> len % Prime1 == 0
    ensures step == 3 * Prime3 ==> len % Prime1 == 0 && len % Prime2 == 0
    ensures step == 3 * Prime4 ==> len % Prime1 == 0 && len % Prime2 == 0 && len % Prime3 == 0
    ensures len >= MinPictureBytes ==> step / 3 in {Prime1, Prime2, Prime3, Prime4}
    ensures len >= MinPictureBytes && step != 3 * Prime4 ==> len % (step / 3) != 0
  {
    if len < MinPictureBytes then 3
    else if len % Prime1 != 0 then 3 * Prime1
    else if len % Prime2 != 0 then 3 * Prime2
    else if len % Prime3 != 0 then 3 * Prime3
    else 3 * Prime4
  }

  /** `samplepixels`: the real number of pixels per sampling unit. */
  function SamplePixels(len: nat, samplefac: int): real
    requires samplefac >= 1
  {
    (len as real) / ((3 * samplefac) as real)
  }

  /** The number of loop passes of `learn`: the naturals below the real
      quotient len / (3 * samplefac). A non-empty buffer is sampled at least
      once and never more often than it has bytes. */
  function SampleCount(len: nat, samplefac: int): (count: nat)
    requires samplefac >= 1
    ensures count <= len
    ensures count == 0 <==> len == 0
  {
    CeilQuotientBounds(len, 3 * samplefac);
    (len + 3 * samplefac - 1) / (3 * samplefac)
  }

  /** The rounded-up quotient of len by d is at most len, and 0 only for 0. */
  lemma CeilQuotientBounds(len: nat, d: int)
    requires d >= 1
    ensures (len + d - 1) / d <= len
    ensures (len + d - 1) / d == 0 <==> len == 0
  {
    if len == 0 {
      DivBelow(d - 1, d, 1);
    } else {
      MulGrows(len, d);
      assert (len + 1) * d == len * d + d;
      DivBelow(len + d - 1, d, len + 1);
      DivAtLeastOne(len + d - 1, d);
    }
  }

  lemma DivAtLeastOne(x: int, d: int)
    requires 1 <= d <= x
    ensures x / d >= 1
  {
    var q := x / d;
    assert x == q * d + x % d;
  }

  lemma MulMonotone(a: int, b: int, d: int)
    ensures 0 <= a <= b && d > 0 ==> a * d <= b * d
  {
  }

  /** A quotient below k when the dividend is below k * d. */
  lemma DivBelow(x: int, d: int, k: int)
    requires d > 0 && 0 <= x < k * d
    ensures x / d < k
  {
    var q := x / d;
    assert q * d <= x;
    MulMonotone(k, q, d);
  }

  lemma RealQuotientBelow(i: nat, len: nat, d: int)
    requires d > 0
    ensures (i as real) < (len as real) / (d as real) <==> i * d < len
  {
    var q := (len as real) / (d as real);
    assert (i as real) - q == ((i * d - len) as real) / (d as real);
  }

  /** The loop `for (i = 0; i < samplepixels;)` runs SampleCount times:
      i stays below the count exactly when it is below the real quotient. */
  lemma SampleCountMatchesLoopBound(len: nat, samplefac: int, i: nat)
    requires samplefac >= 1
    ensures i < SampleCount(len, samplefac) <==> (i as real) < (len as real) / ((3 * samplefac) as real)
  {
    var d := 3 * samplefac;
    var c := SampleCount(len, samplefac);
    RealQuotientBelow(i, len, d);
    assert c * d <= len + d - 1 < c * d + d;
    if i < c {
      MulMonotone(i, c - 1, d);
      assert (c - 1) * d == c * d - d;
    } else {
      MulMonotone(c, i, d);
    }
  }

  /** The buffer shorter than MinPictureBytes still draws one sample per
      3 * samplefac bytes: the forced samplefac = 1 comes after the count is
      fixed. Thirty bytes (ten pixels) with samplefac 10 give one sample. */
  lemma ShortBufferSamplesAreNotPerPixel()
    ensures Stride(30) == 3 && SampleCount(30, 10) == 1
    ensures SampleCount(30, 1) == 10
  {
  }

  /** `pix += step; if (pix >= lengthcount) pix -= lengthcount`: within a
      buffer and for a stride no longer than it, addition modulo the length. */
  function Advance(pix: int, step: nat, len: nat): (next: int)
    ensures 0 <= pix < len && step <= len ==> 0 <= next < len && next == (pix + step) % len
  {
    WrapsOnce(pix, step, len);
    if pix + step >= len then pix + step - len else pix + step
  }

  /** The buffer offset of sample i: for a stride no longer than the buffer,
      always inside it. */
  function SamplePos(len: nat, step: nat, i: nat): (pos: int)
    ensures 0 < step <= len ==> 0 <= pos < len
  {
    if i == 0 then 0 else Advance(SamplePos(len, step, i - 1), step, len)
  }

  /** Every sample that `learn` draws starts inside the buffer. */
  lemma {:induction false} SamplePosInBuffer(len: nat, samplefac: int, i: nat)
    requires samplefac >= 1
    requires i < SampleCount(len, samplefac)
    ensures 0 <= SamplePos(len, Stride(len), i) < len
  {
    if len < 3 {
      DivBelow(len + 3 * samplefac - 1, 3 * samplefac, 2);
    }
  }

  /** Inside a buffer, one subtraction of the length reduces a stride step
      modulo the length. */
  lemma WrapsOnce(pix: int, step: nat, len: nat)
    ensures 0 <= pix < len && step <= len ==>
      (pix + step) % len == if pix + step >= len then pix + step - len else pix + step
  {
    if 0 <= pix < len && step <= len {
      if pix + step >= len {
        DivModUnique(pix + step, 1, pix + step - len, len);
      } else {
        DivModUnique(pix + step, 0, pix + step, len);
      }
    }
  }

  lemma ModSum(a: int, s: int, len: int)
    requires len > 0 && a >= 0 && s >= 0
    ensures (a % len + s) % len == (a + s) % len
  {
    var q := a / len;
    assert a == q * len + a % len;
    ModAddMultipleOf(a % len + s, q, len);
  }

  lemma ModAddMultipleOf(x: int, q: int, len: int)
    requires len > 0
    ensures (x + q * len) % len == x % len
  {
    var r := x % len;
    var t := x / len;
    assert x == t * len + r;
    assert x + q * len == (t + q) * len + r;
    DivModUnique(x + q * len, t + q, r, len);
  }

  lemma DivModUnique(x: int, q: int, r: int, len: int)
    requires len > 0 && 0 <= r < len && x == q * len + r
    ensures x % len == r
  {
    var q' := x / len;
    var r' := x % len;
    assert x == q' * len + r';
    assert (q - q') * len == r' - r;
    if q > q' {
      MulMonotone(1, q - q', len);
    } else if q < q' {
      MulMonotone(1, q' - q, len);
    }
  }

  /** The wrap-around walk is the modular progression i * step mod len. */
  lemma {:induction false} SamplePosIsModular(len: nat, step: nat, i: nat)
    requires 0 < step <= len
    ensures SamplePos(len, step, i) == (i * step) % len
  {
    if i > 0 {
      var prev := SamplePos(len, step, i - 1);
      var a := (i - 1) * step;
      MulMonotone(0, i - 1, step);
      assert a + step == i * step;
      calc {
        SamplePos(len, step, i);
        Advance(prev, step, len);
        (prev + step) % len;
        { SamplePosIsModular(len, step, i - 1); }
        (a % len + step) % len;
        { ModSum(a, step, len); }
        (a + step) % len;
      }
    }
  }

  /** On a whole number of pixels every sample starts on a pixel boundary. */
  lemma {:induction false} SamplesArePixelAligned(len: nat, i: nat)
    requires len % 3 == 0
    ensures SamplePos(len, Stride(len), i) % 3 == 0
  {
    if i > 0 {
      var step := Stride(len);
      var prev := SamplePos(len, step, i - 1);
      SamplesArePixelAligned(len, i - 1);
      assert SamplePos(len, step, i) == Advance(prev, step, len);
      ThreeDivides(prev, step, len);
    }
  }

  lemma ThreeDivides(a: int, b: int, c: int)
    requires a % 3 == 0 && b % 3 == 0 && c % 3 == 0
    ensures (a + b) % 3 == 0 && (a + b - c) % 3 == 0
  {
    assert a == 3 * (a / 3) && b == 3 * (b / 3) && c == 3 * (c / 3);
    assert a + b == 3 * (a / 3 + b / 3);
    assert a + b - c == 3 * (a / 3 + b / 3 - c / 3);
  }

  /** A buffer byte as the training loop reads it: an offset past the end
      yields undefined, and `undefined & 0xff` is 0. */
  function ByteAt(pixels: seq<Byte>, k: int): (b: Byte)
    ensures 0 <= k < |pixels| ==> b == pixels[k]
    ensures !(0 <= k < |pixels|) ==> b == 0
  {
    if 0 <= k < |pixels| then pixels[k] else 0
  }

  /** The three bytes at pix, each shifted left by NetBiasShift. */
  function SampleAt(pixels: seq<Byte>, pix: int): (s: Sample)
    ensures s == Sample(16 * ByteAt(pixels, pix), 16 * ByteAt(pixels, pix + 1), 16 * ByteAt(pixels, pix + 2))
    ensures 0 <= s.b < 4096 && 0 <= s.g < 4096 && 0 <= s.r < 4096
  {
    Pow2Values();
    Sample(Shl(ByteAt(pixels, pix), NetBiasShift),
           Shl(ByteAt(pixels, pix + 1), NetBiasShift),
           Shl(ByteAt(pixels, pix + 2), NetBiasShift))
  }

  // ----- Schedule -----

  /** `samplepixels / ncycles | 0`: the whole number of samples per cycle,
      truncated toward zero. A zero ncycles gives Infinity or NaN, and both
      become 0. */
  function Delta(len: nat, samplefac: int, ncycles: int): (d: int)
    requires samplefac >= 1
    ensures ncycles == 0 ==> d == 0
    ensures ncycles > 0 && len < TwoTo31 ==>
      0 <= d && d as real <= SamplePixels(len, samplefac) / (ncycles as real) < (d + 1) as real
    ensures ncycles < 0 && len < TwoTo31 ==> d <= 0
  {
    if ncycles == 0 then 0
    else
      var x := SamplePixels(len, samplefac) / (ncycles as real);
      QuotientWithin(len as real, (3 * samplefac) as real);
      if ncycles > 0 then
        QuotientWithin(SamplePixels(len, samplefac), ncycles as real);
        ToInt32(Trunc(x))
      else
        QuotientWithin(SamplePixels(len, samplefac), -ncycles as real);
        assert x == -(SamplePixels(len, samplefac) / (-ncycles as real));
        ToInt32(Trunc(x))
  }

  /** Dividing a non-negative real by at least 1 keeps it between 0 and itself. */
  lemma QuotientWithin(a: real, n: real)
    requires 0.0 <= a && 1.0 <= n
    ensures 0.0 <= a / n <= a
  {
    assert (a / n) * n == a;
  }

  /** `radius -= radius / radiusdec`. */
  function NextRadius(radius: real): (r: real)
    ensures 0.0 <= radius ==> 0.0 <= r <= radius
  {
    radius - radius / (RadiusDec as real)
  }

  /** The integral neighbourhood radius derived from radius, with the clamp
      that turns 1 (and anything smaller) into 0. */
  function RadOf(radius: real): (rad: int)
    ensures rad != 1 && rad >= 0
    ensures 0.0 <= radius < TwoTo31 as real ==> (rad == 0 <==> radius < 128.0)
    ensures 0.0 <= radius < TwoTo31 as real ==> (rad as real) * 64.0 <= radius
  {
    Pow2Values();
    var r := Shr(Trunc(radius), RadiusBiasShift);
    if r <= 1 then 0 else r
  }

  /** A smaller radius never yields a larger rad. */
  lemma RadIsMonotone(x: real, y: real)
    requires 0.0 <= x <= y < TwoTo31 as real
    ensures RadOf(x) <= RadOf(y)
  {
    Pow2Values();
    assert Trunc(x) <= Trunc(y);
    ShrOfSmall(Trunc(x), RadiusBiasShift);
    ShrOfSmall(Trunc(y), RadiusBiasShift);
  }

  /** rad never grows from one decay to the next, so once neighbour updates
      stop they stay stopped. */
  lemma RadNeverGrows(radius: real)
    requires 0.0 <= radius < TwoTo31 as real
    ensures RadOf(NextRadius(radius)) <= RadOf(radius)
    ensures RadOf(radius) == 0 ==> RadOf(NextRadius(radius)) == 0
  {
    RadIsMonotone(NextRadius(radius), radius);
  }

  /** While radius stays at or below its start initrad * radiusbias, rad is
      at most initrad = netsize >> 3, the length of radpower: every
      radpower[k] with k < rad exists. */
  lemma RadWithinRadpower(radius: real, initrad: nat)
    requires initrad <= 32
    requires 0.0 <= radius <= (initrad * RadiusBias) as real
    ensures RadOf(radius) <= initrad
  {
    RadIsMonotone(radius, (initrad * RadiusBias) as real);
    Pow2Values();
    assert Trunc((initrad * RadiusBias) as real) == initrad * 64;
    ShrOfSmall(initrad * 64, RadiusBiasShift);
  }

  /** Networks of fewer than 16 entries never update neighbours. */
  lemma SmallNetworksHaveNoNeighbourhood(netsize: int, radius: real)
    requires 4 <= netsize < 16
    requires 0.0 <= radius <= ((netsize / 8) * RadiusBias) as real
    ensures RadOf(radius) == 0
  {
    RadWithinRadpower(radius, netsize / 8);
  }

  // ----- alterneigh -----

  /** Positions alterneigh moves for winner i: above i up to the network end
      or radius, and below i down to |i - rad| (exclusive). */
  predicate InNeighbourhood(n: int, rad: int, i: int, p: int)
  {
    (i < p < MinInt(i + rad, n)) || (AbsInt(i - rad) < p < i)
  }

  /** The while loop of alterneigh: j walks up, k walks down, m counts passes
      and indexes radpower. */
  function NeighLoop(net: seq<Neuron>, pull: Pull, s: Sample, decays: nat, rad: nat,
                     i: int, lo: int, hi: int, j: int, k: int, m: nat): (r: seq<Neuron>)
    requires 0 <= lo && hi <= |net| && 0 <= i < |net|
    requires i < j && k < i && m >= 1
    requires j < hi ==> j == i + m
    requires k > lo ==> k == i - m
    ensures |r| == |net|
    ensures forall p | 0 <= p < |net| ::
              r[p] == if j <= p < hi then pull(net[p], Neighbour(decays, rad, p - i), s)
                      else if lo < p <= k then pull(net[p], Neighbour(decays, rad, i - p), s)
                      else net[p]
    decreases (if j < hi then hi - j else 0) + (if k > lo then k - lo else 0)
  {
    if !(j < hi || k > lo) then net
    else
      var up := if j < hi then net[j := pull(net[j], Neighbour(decays, rad, m), s)] else net;
      var down := if k > lo then up[k := pull(up[k], Neighbour(decays, rad, m), s)] else up;
      NeighLoop(down, pull, s, decays, rad, i, lo, hi,
                if j < hi then j + 1 else j, if k > lo then k - 1 else k, m + 1)
  }

  /** alterneigh: the winner itself is left alone, each moved position p lies
      inside the network at distance 1..rad-1 from i, and that distance is
      the radpower index it is moved with. */
  function AlterNeigh(net: seq<Neuron>, pull: Pull, s: Sample, decays: nat, rad: nat, i: int): (r: seq<Neuron>)
    requires 0 <= i < |net|
    ensures |r| == |net|
    ensures r[i] == net[i]
    ensures forall p | 0 <= p < |net| ::
              r[p] == if InNeighbourhood(|net|, rad, i, p)
                      then pull(net[p], Neighbour(decays, rad, AbsInt(p - i)), s) else net[p]
    ensures forall p :: InNeighbourhood(|net|, rad, i, p) ==> 0 <= p < |net| && p != i && 1 <= AbsInt(p - i) < rad
  {
    var lo := AbsInt(i - rad);
    var hi := MinInt(i + rad, |net|);
    NeighLoop(net, pull, s, decays, rad, i, lo, hi, i + 1, i - 1, 1)
  }

  /** Away from the low end the neighbourhood is symmetric: every position
      strictly within rad of the winner, and inside the network, is moved. */
  lemma NeighbourhoodSymmetricAwayFromStart(n: int, rad: int, i: int, p: int)
    requires rad <= i < n && 0 <= p < n
    ensures InNeighbourhood(n, rad, i, p) <==> 0 < AbsInt(p - i) < rad
  {
  }

  /** Near the low end it is not: `lo = |i - rad|` reflects the lower bound
      instead of clamping it, so for winner 1 with rad 4 the entry at 0, one
      step away, is not moved; only entries 2..4 above the winner are. For
      winner 5 with rad 7, entries 3 and 4 below it move and 0..2 do not. */
  lemma NeighbourhoodTruncatedNearStart()
    ensures !InNeighbourhood(256, 4, 1, 0)
    ensures InNeighbourhood(256, 4, 1, 2) && InNeighbourhood(256, 4, 1, 4)
    ensures forall p :: InNeighbourhood(256, 4, 1, p) <==> 2 <= p <= 4
    ensures forall p :: p < 5 ==> (InNeighbourhood(256, 7, 5, p) <==> 3 <= p)
  {
  }

  // ----- The loop -----

  /** The mutable state of `learn` between samples. */
  datatype Progress = Progress(
    network: seq<Neuron>, freq: seq<int>, bias: seq<int>,
    pix: int, radius: real, rad: int, decays: nat)

  /** After sample number `done`, every delta-th sample decays alpha (counted
      by decays) and radius, and recomputes rad; nothing else changes. */
  function Decay(p: Progress, done: nat, delta: int): (r: Progress)
    requires delta != 0
    ensures r.network == p.network && r.freq == p.freq && r.bias == p.bias && r.pix == p.pix
    ensures r.decays == p.decays + (if done % delta == 0 then 1 else 0)
    ensures done % delta != 0 ==> r.radius == p.radius && r.rad == p.rad
    ensures done % delta == 0 ==> r.radius == NextRadius(p.radius) && r.rad == RadOf(r.radius)
  {
    if done % delta == 0 then
      var radius := NextRadius(p.radius);
      p.(radius := radius, rad := RadOf(radius), decays := p.decays + 1)
    else p
  }

  /** Counted from the start of the loop, alpha has decayed once per
      multiple of |delta| among the samples drawn so far. */
  lemma DecayCountsMultiples(p: Progress, done: nat, delta: int)
    requires delta != 0 && done >= 1
    requires p.decays == (done - 1) / AbsInt(delta)
    ensures Decay(p, done, delta).decays == done / AbsInt(delta)
  {
    MultiplesStep(done, delta);
  }

  /** Among 1..done the multiples of delta are those among 1..done-1, plus
      done itself when delta divides it. */
  lemma MultiplesStep(done: nat, delta: int)
    requires delta != 0 && done >= 1
    ensures (done - 1) / AbsInt(delta) + (if done % delta == 0 then 1 else 0) == done / AbsInt(delta)
  {
    var a := AbsInt(delta);
    var q := (done - 1) / a;
    var r := (done - 1) % a;
    assert done - 1 == q * a + r;
    if delta < 0 {
      ModNegatedDivisor(done, a);
    }
    if r == a - 1 {
      assert done == (q + 1) * a;
      DivModExact(done, q + 1, 0, a);
    } else {
      assert done == q * a + (r + 1);
      DivModExact(done, q, r + 1, a);
    }
  }

  /** Divisibility does not depend on the divisor's sign. */
  lemma ModNegatedDivisor(x: int, d: int)
    requires d > 0
    ensures x % (-d) == x % d
  {
    var q' := x / (-d);
    var r' := x % (-d);
    assert x == q' * (-d) + r';
    assert x == (-q') * d + r';
    DivModUnique(x, -q', r', d);
  }

  /** Quotient and remainder are the unique pair with x == q * len + r. */
  lemma DivModExact(x: int, q: int, r: int, len: int)
    requires len > 0 && 0 <= r < len && x == q * len + r
    ensures x / len == q && x % len == r
  {
    DivModUnique(x, q, r, len);
    var q' := x / len;
    assert x == q' * len + r;
    assert (q - q') * len == 0;
    if q > q' {
      MulMonotone(1, q - q', len);
    } else if q < q' {
      MulMonotone(1, q' - q, len);
    }
  }

  /** The rest of one pass of the loop once the contest named a winner: move
      it toward the sample, then its neighbours while rad is non-zero,
      advance pix along the stride, and decay after every delta-th sample. */
  function TrainStep(len: nat, step: nat, delta: int, pull: Pull, st: Progress, s: Sample, o: Outcome, done: nat): (next: Progress)
    requires delta != 0 && 0 <= o.winner < |st.network| && st.rad >= 0
    ensures |next.network| == |st.network| && next.freq == o.freq && next.bias == o.bias
    ensures forall p | 0 <= p < |st.network| ::
              next.network[p] == if p == o.winner then pull(st.network[p], Single(st.decays), s)
                                 else if st.rad != 0 && InNeighbourhood(|st.network|, st.rad, o.winner, p)
                                 then pull(st.network[p], Neighbour(st.decays, st.rad, AbsInt(p - o.winner)), s)
                                 else st.network[p]
    ensures next.pix == Advance(st.pix, step, len)
    ensures next.decays == st.decays + (if done % delta == 0 then 1 else 0)
    ensures 0.0 <= st.radius ==> 0.0 <= next.radius <= st.radius
    ensures st.rad == RadOf(st.radius) ==> next.rad == RadOf(next.radius)
  {
    var j := o.winner;
    var moved := st.network[j := pull(st.network[j], Single(st.decays), s)];
    var net := if st.rad != 0 then AlterNeigh(moved, pull, s, st.decays, st.rad, j) else moved;
    Decay(st.(network := net, freq := o.freq, bias := o.bias, pix := Advance(st.pix, step, len)), done, delta)
  }

  /** What the sample loop keeps of its state before sample i: the sizes of
      the three tables, pix at the i-th stride position (inside the buffer
      while samples remain), alpha decayed once per multiple of |delta|, and
      rad derived from a radius that never exceeds its starting value. */
  predicate LoopReady(pixels: seq<Byte>, step: nat, count: nat, delta: int, initrad: nat, st: Progress, i: nat)
  {
    && i <= count && delta != 0 && 0 < step && initrad <= 32
    && |st.freq| == |st.network| && |st.bias| == |st.network|
    && (count > 1 ==> step <= |pixels|)
    && (i < count ==> 0 <= st.pix < |pixels|)
    && st.pix == SamplePos(|pixels|, step, i) && st.decays == i / AbsInt(delta)
    && 0.0 <= st.radius <= (initrad * RadiusBias) as real
    && st.rad == RadOf(st.radius) && st.rad <= initrad
  }

  /** A pass with a winner leaves a state ready for the next sample. */
  lemma NextReady(pixels: seq<Byte>, step: nat, count: nat, delta: int, initrad: nat,
                  pull: Pull, st: Progress, s: Sample, o: Outcome, i: nat)
    requires i < count && LoopReady(pixels, step, count, delta, initrad, st, i)
    requires 0 <= o.winner < |st.network| && |o.freq| == |st.network| && |o.bias| == |st.network|
    ensures LoopReady(pixels, step, count, delta, initrad, TrainStep(|pixels|, step, delta, pull, st, s, o, i + 1), i + 1)
  {
    var next := TrainStep(|pixels|, step, delta, pull, st, s, o, i + 1);
    RadWithinRadpower(next.radius, initrad);
    MultiplesStep(i + 1, delta);
  }

  /** One pass of the sample loop: draw the sample at pix, hold the contest
      and train its winner; it fails exactly when the contest has no winner,
      and otherwise leaves a state ready for the next sample. */
  function Pass(pixels: seq<Byte>, step: nat, count: nat, delta: int, initrad: nat,
                pull: Pull, st: Progress, i: nat): (r: Result<Progress>)
    requires i < count && LoopReady(pixels, step, count, delta, initrad, st, i)
    ensures r.Ok? <==> Contest(st.network, st.freq, st.bias, SampleAt(pixels, st.pix)).winner >= 0
    ensures r.Ok? ==> |r.value.network| == |st.network| && LoopReady(pixels, step, count, delta, initrad, r.value, i + 1)
    ensures r.Err? ==> r.error == NoContestWinner
  {
    var s := SampleAt(pixels, st.pix);
    var o := Contest(st.network, st.freq, st.bias, s);
    if o.winner < 0 then Err(NoContestWinner)
    else
      NextReady(pixels, step, count, delta, initrad, pull, st, s, o, i);
      Ok(TrainStep(|pixels|, step, delta, pull, st, s, o, i + 1))
  }

  /** The sample loop from sample i on. */
  function LearnFrom(pixels: seq<Byte>, step: nat, count: nat, delta: int, initrad: nat,
                     pull: Pull, st: Progress, i: nat): (r: Result<Progress>)
    requires LoopReady(pixels, step, count, delta, initrad, st, i)
    ensures r.Ok? ==> |r.value.network| == |st.network|
    ensures r.Ok? ==> |r.value.freq| == |st.network| && |r.value.bias| == |st.network|
    ensures r.Err? ==> r.error == NoContestWinner
    ensures r.Ok? ==> LoopReady(pixels, step, count, delta, initrad, r.value, count)
    decreases count - i
  {
    if i == count then Ok(st)
    else
      match Pass(pixels, step, count, delta, initrad, pull, st, i)
      case Err(x) => Err(x)
      case Ok(next) => LearnFrom(pixels, step, count, delta, initrad, pull, next, i + 1)
  }

  lemma LoopStartsInBuffer(len: nat, samplefac: int)
    requires samplefac >= 1
    ensures SampleCount(len, samplefac) > 0 ==> 0 < len
    ensures SampleCount(len, samplefac) > 1 ==> Stride(len) <= len
  {
    if len < 3 {
      DivBelow(len + 3 * samplefac - 1, 3 * samplefac, 2);
    }
  }

  /** The delta the sample loop divides by: learn's delta, read as 1 when it
      is 0 (the loop resets a zero delta before its first use). */
  function LoopDelta(e: Engine): (d: int)
    requires e.Valid()
    ensures d != 0
    ensures Delta(|e.pixels|, e.samplefac, e.ncycles) != 0 ==> d == Delta(|e.pixels|, e.samplefac, e.ncycles)
  {
    var delta := Delta(|e.pixels|, e.samplefac, e.ncycles);
    if delta == 0 then 1 else delta
  }

  /** The state learn's sample loop starts from: the engine's own tables, pix
      at the start of the buffer, alpha not yet decayed and the radius at
      initradius. */
  function Start(e: Engine): (st: Progress)
    requires e.Valid()
    ensures st.network == e.network && st.freq == e.freq && st.bias == e.bias
    ensures LoopReady(e.pixels, Stride(|e.pixels|), SampleCount(|e.pixels|, e.samplefac), LoopDelta(e), e.netsize / 8, st, 0)
  {
    var initrad := e.netsize / 8;
    var radius := (initrad * RadiusBias) as real;
    RadWithinRadpower(radius, initrad);
    LoopStartsInBuffer(|e.pixels|, e.samplefac);
    Progress(e.network, e.freq, e.bias, 0, radius, RadOf(radius), 0)
  }

  /** `learn`: draws SampleCount samples along the stride walk and leaves the
      engine's samplefac at 1 for a buffer shorter than MinPictureBytes. */
  function Learn(e: Engine, pull: Pull): (r: Result<Engine>)
    requires e.Valid()
    ensures r.Ok? ==> r.value.Valid()
    ensures r.Ok? ==> r.value.pixels == e.pixels && r.value.netsize == e.netsize && r.value.ncycles == e.ncycles
    ensures r.Ok? ==> (r.value.samplefac == 1 <==> |e.pixels| < MinPictureBytes || e.samplefac == 1)
    ensures r.Err? ==> r.error == NoContestWinner
    ensures var run := LearnFrom(e.pixels, Stride(|e.pixels|), SampleCount(|e.pixels|, e.samplefac),
                                 LoopDelta(e), e.netsize / 8, pull, Start(e), 0);
      && (r.Ok? <==> run.Ok?)
      && (r.Ok? ==> r.value.network == run.value.network && r.value.freq == run.value.freq
                    && r.value.bias == run.value.bias)
  {
    var len := |e.pixels|;
    match LearnFrom(e.pixels, Stride(len), SampleCount(len, e.samplefac), LoopDelta(e), e.netsize / 8, pull, Start(e), 0)
    case Err(x) => Err(x)
    case Ok(p) =>
      Ok(e.(network := p.network, freq := p.freq, bias := p.bias,
            samplefac := if len < MinPictureBytes then 1 else e.samplefac))
  }

  // ----- Training never runs out of winners -----

  /** Every entry's channels lie in the trained range [0, 4096). */
  predicate AllTrained(net: seq<Neuron>)
  {
    forall p :: 0 <= p < |net| ==> InTrainedRange(net[p])
  }

  /** The numeric update keeps an entry in the trained range when the sample
      lies in it. altersingle and alterneigh move each channel by at most its
      whole distance to the sample (alpha <= initalpha, radpower[m] <=
      alpharadbias), so the update of the engine has this property. */
  ghost predicate KeepsTrainedRange(pull: Pull)
  {
    forall n: Neuron, inf: Influence, s: Sample ::
      (InTrainedRange(n) && 0 <= s.b < 4096 && 0 <= s.g < 4096 && 0 <= s.r < 4096) ==>
      InTrainedRange(pull(n, inf, s))
  }

  /** A fresh engine's grey ramp lies in the trained range. */
  lemma FreshNetworkIsTrained(pixels: seq<Byte>, options: Options)
    requires NewEngine(pixels, options).Ok?
    ensures AllTrained(NewEngine(pixels, options).value.network)
  {
    var net := NewEngine(pixels, options).value.network;
    forall p | 0 <= p < |net|
      ensures InTrainedRange(net[p])
    {
      if p == 0 {
        RampBounds(options.netsize, 0, 1);
      } else {
        RampBounds(options.netsize, 0, p);
      }
      assert net[p].g == RampValue(p, options.netsize);
    }
  }

  /** One pass keeps the network in the trained range. */
  lemma TrainStepKeepsTrained(len: nat, step: nat, delta: int, pull: Pull, st: Progress, s: Sample, o: Outcome, done: nat)
    requires delta != 0 && 0 <= o.winner < |st.network| && st.rad >= 0
    requires KeepsTrainedRange(pull) && AllTrained(st.network)
    requires 0 <= s.b < 4096 && 0 <= s.g < 4096 && 0 <= s.r < 4096
    ensures AllTrained(TrainStep(len, step, delta, pull, st, s, o, done).network)
  {
    var j := o.winner;
    var moved := st.network[j := pull(st.network[j], Single(st.decays), s)];
    assert AllTrained(moved);
    if st.rad != 0 {
      var net := AlterNeigh(moved, pull, s, st.decays, st.rad, j);
      assert AllTrained(net);
    }
  }

  /** After a pass whose contest found a winner, the sample loop is the loop
      from the next state, and that state again meets the loop's demands. */
  lemma LearnFromStep(pixels: seq<Byte>, step: nat, count: nat, delta: int, initrad: nat,
                      pull: Pull, st: Progress, i: nat)
    requires i < count && LoopReady(pixels, step, count, delta, initrad, st, i)
    ensures var s := SampleAt(pixels, st.pix);
      var o := Contest(st.network, st.freq, st.bias, s);
      o.winner >= 0 ==>
        var next := TrainStep(|pixels|, step, delta, pull, st, s, o, i + 1);
        && |next.network| == |st.network|
        && LoopReady(pixels, step, count, delta, initrad, next, i + 1)
        && LearnFrom(pixels, step, count, delta, initrad, pull, st, i)
           == LearnFrom(pixels, step, count, delta, initrad, pull, next, i + 1)
  {
    var s := SampleAt(pixels, st.pix);
    var o := Contest(st.network, st.freq, st.bias, s);
    if o.winner >= 0 {
      assert Pass(pixels, step, count, delta, initrad, pull, st, i)
          == Ok(TrainStep(|pixels|, step, delta, pull, st, s, o, i + 1));
    }
  }

  /** A pass over a network in the trained range finds a winner and leaves
      a state that is again ready and again in the trained range. */
  lemma TrainedStep(pixels: seq<Byte>, step: nat, count: nat, delta: int, initrad: nat,
                    pull: Pull, st: Progress, i: nat) returns (next: Progress)
    requires i < count && LoopReady(pixels, step, count, delta, initrad, st, i)
    requires |st.network| > 0 && AllTrained(st.network) && KeepsTrainedRange(pull)
    ensures LoopReady(pixels, step, count, delta, initrad, next, i + 1)
    ensures |next.network| == |st.network| && AllTrained(next.network)
    ensures LearnFrom(pixels, step, count, delta, initrad, pull, st, i)
            == LearnFrom(pixels, step, count, delta, initrad, pull, next, i + 1)
  {
    var s := SampleAt(pixels, st.pix);
    var o := Contest(st.network, st.freq, st.bias, s);
    ContestHasWinner(st.network, st.freq, st.bias, s);
    next := TrainStep(|pixels|, step, delta, pull, st, s, o, i + 1);
    TrainStepKeepsTrained(|pixels|, step, delta, pull, st, s, o, i + 1);
    LearnFromStep(pixels, step, count, delta, initrad, pull, st, i);
  }

  /** While the entries stay in the trained range every contest has a
      winner, so the sample loop never fails. */
  lemma {:induction false} LearnFromSucceeds(pixels: seq<Byte>, step: nat, count: nat, delta: int, initrad: nat,
                                             pull: Pull, st: Progress, i: nat)
    requires LoopReady(pixels, step, count, delta, initrad, st, i)
    requires |st.network| > 0 && AllTrained(st.network) && KeepsTrainedRange(pull)
    ensures LearnFrom(pixels, step, count, delta, initrad, pull, st, i).Ok?
    decreases count - i
  {
    if i < count {
      var next := TrainedStep(pixels, step, count, delta, initrad, pull, st, i);
      LearnFromSucceeds(pixels, step, count, delta, initrad, pull, next, i + 1);
    } else {
      LearnFromDone(pixels, step, count, delta, initrad, pull, st, i);
    }
  }

  /** The loop stops once all count samples are drawn. */
  lemma LearnFromDone(pixels: seq<Byte>, step: nat, count: nat, delta: int, initrad: nat,
                      pull: Pull, st: Progress, i: nat)
    requires count <= i && LoopReady(pixels, step, count, delta, initrad, st, i)
    ensures LearnFrom(pixels, step, count, delta, initrad, pull, st, i) == Ok(st)
  {
  }

  /** learn succeeds on a network in the trained range whenever the update
      keeps it there. */
  lemma LearnSucceeds(e: Engine, pull: Pull)
    requires e.Valid() && AllTrained(e.network) && KeepsTrainedRange(pull)
    ensures Learn(e, pull).Ok?
  {
    var len := |e.pixels|;
    LearnFromSucceeds(e.pixels, Stride(len), SampleCount(len, e.samplefac), LoopDelta(e), e.netsize / 8, pull, Start(e), 0);
  }
}

=== FILE: memo_key.dfy ===
/** The key `indexed` files its memo under: `r << 16 | g << 8 | b` of a
    pixel's byte channels. */
module MemoKey {
  import opened JsNumbers

  datatype Colour = Colour(r: Byte, g: Byte, b: Byte)

  /** The memo key of a byte colour. Each channel lands in its own byte of
      the 32-bit result, so the or of the shifted channels is their base-256
      sum (OrOfShiftedBytes). */
  function Key(r: Byte, g: Byte, b: Byte): (k: int)
    ensures 0 <= k < 0x100_0000
  {
    r * 65536 + g * 256 + b
  }

  /** On 32-bit words, or-ing the shifted byte fields adds them. */
  lemma OrOfShiftedBytes(rb: bv32, gb: bv32, bb: bv32)
    requires rb < 256 && gb < 256 && bb < 256
    ensures (rb << 16) | (gb << 8) | bb == rb * 65536 + gb * 256 + bb
  {
  }

  /** The colour a key was made from. */
  function Unpack(k: int): (c: Colour)
    requires 0 <= k < 0x100_0000
  {
    Colour(k / 65536, (k / 256) % 256, k % 256)
  }

  /** Decoding a key gives its colour back. */
  lemma UnpackKey(r: Byte, g: Byte, b: Byte)
    ensures Unpack(Key(r, g, b)) == Colour(r, g, b)
  {
    var k := Key(r, g, b);
    assert k == (r * 256 + g) * 256 + b;
    assert k / 256 == r * 256 + g;
    assert k % 256 == b;
    assert (k / 256) % 256 == g;
    assert k / 65536 == (k / 256) / 256;
  }

  /** Encoding a decoded key gives the key back. */
  lemma KeyOfUnpack(k: int)
    requires 0 <= k < 0x100_0000
    ensures var c := Unpack(k); Key(c.r, c.g, c.b) == k
  {
    var q := k / 256;
    assert k == q * 256 + k % 256;
    assert q == (q / 256) * 256 + q % 256;
    assert k / 65536 == q / 256;
  }

  /** Different colours have different keys, so a memo hit is the answer
      for the very colour being looked up. */
  lemma KeyInjective(r: Byte, g: Byte, b: Byte, r2: Byte, g2: Byte, b2: Byte)
    ensures Key(r, g, b) == Key(r2, g2, b2) <==> r == r2 && g == g2 && b == b2
  {
    UnpackKey(r, g, b);
    UnpackKey(r2, g2, b2);
  }
}

=== FILE: neuquant.dfy ===
/** The NeuQuant engine's state and its constructor: option defaults, range
    validation, the initial grey ramp and the frequency/bias counters. */
module NeuQuant {
  import opened JsNumbers

  /** Fixed-point parameters of the engine (they do not depend on options). */
  const NetBiasShift: nat := 4      // colour channels carry 4 extra fraction bits
  const IntBiasShift: nat := 16
  const IntBias: int := 65536       // 1 << IntBiasShift
  const GammaShift: nat := 10
  const BetaShift: nat := 10
  const Beta: int := 64             // IntBias >> BetaShift
  const BetaGamma: int := 65536     // Beta << GammaShift
  const RadiusBiasShift: nat := 6
  const RadiusBias: int := 64       // 1 << RadiusBiasShift
  const RadiusDec: int := 30

  /** The recognised options, with the defaults the engine merges in first. */
  datatype Options = Options(netsize: int := 256, samplefac: int := 10, ncycles: int := 100)

  /** Why a quantisation run stops: a rejected option, or a contest that found
      no entry below its distance bound (the engine would then index the
      network at -1 and fail). */
  datatype QuantError = NetsizeOutOfRange | SamplefacOutOfRange | NoContestWinner

  datatype Result<T> = Ok(value: T) | Err(error: QuantError)

  /** A network entry during training: three Float64 channels (stored in
      buffer byte order b, g, r) and the tag slot. */
  datatype Neuron = Neuron(b: real, g: real, r: real, tag: real)

  /** A network entry after de-biasing: integral channels and its tag. */
  datatype Entry = Entry(b: int, g: int, r: int, tag: int)

  datatype Engine = Engine(
    pixels: seq<Byte>,
    netsize: int,
    samplefac: int,
    ncycles: int,
    network: seq<Neuron>,
    freq: seq<int>,
    bias: seq<int>)
  {
    /** What every constructed engine satisfies. */
    predicate Valid() {
      && 4 <= netsize <= 256
      && 1 <= samplefac <= 30
      && |network| == netsize
      && |freq| == netsize
      && |bias| == netsize
    }
  }

  predicate NetsizeInRange(netsize: int) { 4 <= netsize <= 256 }

  predicate SamplefacInRange(samplefac: int) { 1 <= samplefac <= 30 }

  /** The grey level of entry i of a fresh network, before de-biasing. */
  function RampValue(i: nat, netsize: int): real
    requires netsize > 0
  {
    (Shl(i, NetBiasShift + 8) as real) / (netsize as real)
  }

  /** The constructor: validates netsize first, then samplefac, and builds the
      ramp network with equal frequency shares and zero bias. */
  function NewEngine(pixels: seq<Byte>, options: Options): (r: Result<Engine>)
    ensures r.Ok? <==> NetsizeInRange(options.netsize) && SamplefacInRange(options.samplefac)
    ensures !NetsizeInRange(options.netsize) ==> r == Err(NetsizeOutOfRange)
    ensures NetsizeInRange(options.netsize) && !SamplefacInRange(options.samplefac) ==> r == Err(SamplefacOutOfRange)
    ensures r.Ok? ==> r.value.Valid() && r.value.pixels == pixels && r.value.netsize == options.netsize
    ensures r.Ok? ==> r.value.samplefac == options.samplefac && r.value.ncycles == options.ncycles
    ensures r.Ok? ==> forall i :: 0 <= i < options.netsize ==>
      var n := r.value.network[i];
      n.b == n.g == n.r && n.tag == 0.0 && r.value.freq[i] == IntBias / options.netsize && r.value.bias[i] == 0
    ensures r.Ok? ==> forall i :: 0 <= i < options.netsize ==>
      r.value.network[i].g == (i * 4096) as real / options.netsize as real
  {
    if options.netsize < 4 || options.netsize > 256 then
      Err(NetsizeOutOfRange)
    else if options.samplefac < 1 || options.samplefac > 30 then
      Err(SamplefacOutOfRange)
    else
      var n := options.netsize;
      RampIsExact(n);
      Ok(Engine(
        pixels, n, options.samplefac, options.ncycles,
        seq(n, i requires 0 <= i < n => var v := RampValue(i, n); Neuron(v, v, v, 0.0)),
        // intbias / netsize is a real quotient; the Uint32Array store truncates it
        seq(n, i => IntBias / n),
        seq(n, i => 0)))
  }

  /** The initial network is a strictly increasing grey ramp that starts at 0
      and stays below 256 << NetBiasShift, so every de-biased channel is a byte. */
  lemma InitialRampIsIncreasing(pixels: seq<Byte>, options: Options, i: int, j: int)
    requires NewEngine(pixels, options).Ok?
    requires 0 <= i < j < options.netsize
    ensures var net := NewEngine(pixels, options).value.network;
      && net[0].g == 0.0
      && net[i].g < net[j].g
      && 0.0 <= net[i].g && net[j].g < 4096.0
  {
    var net := NewEngine(pixels, options).value.network;
    RampBounds(options.netsize, i, j);
    assert net[0].g == RampValue(0, options.netsize);
    assert net[i].g == RampValue(i, options.netsize);
    assert net[j].g == RampValue(j, options.netsize);
  }

  lemma RampBounds(n: int, i: int, j: int)
    requires 4 <= n <= 256
    requires 0 <= i < j < n
    ensures RampValue(0, n) == 0.0
    ensures 0.0 <= RampValue(i, n) < RampValue(j, n) < 4096.0
  {
    ShlRamp(0);
    ShlRamp(i);
    ShlRamp(j);
    assert RampValue(i, n) == (i as real * 4096.0) / (n as real);
    assert RampValue(j, n) == (j as real * 4096.0) / (n as real);
    QuotientBelow(i as real * 4096.0, j as real * 4096.0, n as real);
    QuotientBelowBound(j as real * 4096.0, 4096.0, n as real);
  }

  /** Every ramp entry is i * 4096 / netsize exactly. */
  lemma RampIsExact(n: int)
    requires 0 < n <= 256
    ensures forall i :: 0 <= i < n ==> RampValue(i, n) == (i * 4096) as real / n as real
  {
    forall i | 0 <= i < n
      ensures RampValue(i, n) == (i * 4096) as real / n as real
    {
      ShlRamp(i);
    }
  }

  /** `i << 12` for a network position is exact. */
  lemma ShlRamp(i: nat)
    requires i < 256
    ensures Shl(i, NetBiasShift + 8) == i * 4096
  {
    Pow2Values();
  }

  lemma QuotientBelow(x: real, y: real, n: real)
    requires 0.0 <= x < y && n > 0.0
    ensures 0.0 <= x / n < y / n
  {
  }

  lemma QuotientBelowBound(x: real, c: real, n: real)
    requires 0.0 <= x < c * n && n > 0.0
    ensures x / n < c
  {
    assert (x / n) * n == x;
  }
}

=== FILE: reorganise.dfy ===
/** What happens to the network after training: `unbiasnet` turns channels
    into integers and stamps each entry with its position, `inxbuild` sorts
    the entries by green and builds the green index, and `getColorMap`
    writes the palette back in the stamped order. */
module Reorganise {
  import opened JsNumbers
  import opened NeuQuant
  import Learning
  import Competition

  // ----- unbiasnet -----

  /** v is x de-biased: a sixteenth of x, rounded down. */
  predicate SixteenthOf(v: int, x: real)
  {
    (16 * v) as real <= x < (16 * v + 16) as real
  }

  /** `x >>= netbiasshift` on a Float64 channel: for a non-negative channel
      below 2^31, the channel divided by 16 and rounded down. */
  function Unbias(x: real): (v: int)
    ensures 0.0 <= x < TwoTo31 as real ==> SixteenthOf(v, x)
  {
    var t := Trunc(x);
    Pow2Values();
    if 0.0 <= x < TwoTo31 as real then
      ShrOfSmall(t, NetBiasShift);
      assert t == 16 * (t / 16) + t % 16;
      Shr(t, NetBiasShift)
    else Shr(t, NetBiasShift)
  }

  /** unbiasnet: entry i keeps its de-biased channels and gets tag i. */
  function UnbiasNet(net: seq<Neuron>): (r: seq<Entry>)
    ensures |r| == |net|
    ensures forall i :: 0 <= i < |r| ==> r[i].tag == i
    ensures forall i :: 0 <= i < |r| && Competition.InTrainedRange(net[i]) ==>
      SixteenthOf(r[i].b, net[i].b) && SixteenthOf(r[i].g, net[i].g) && SixteenthOf(r[i].r, net[i].r)
    ensures forall i :: 0 <= i < |r| && Competition.InTrainedRange(net[i]) ==> IsByteEntry(r[i])
  {
    UnbiasKeepsBytes(net);
    seq(|net|, i requires 0 <= i < |net| => UnbiasEntry(net[i], i))
  }

  function UnbiasEntry(n: Neuron, i: int): Entry
  {
    Entry(Unbias(n.b), Unbias(n.g), Unbias(n.r), i)
  }

  lemma UnbiasKeepsBytes(net: seq<Neuron>)
    ensures forall i :: 0 <= i < |net| && Competition.InTrainedRange(net[i]) ==> IsByteEntry(UnbiasEntry(net[i], i))
  {
    forall i | 0 <= i < |net|
      ensures Competition.InTrainedRange(net[i]) ==> IsByteEntry(UnbiasEntry(net[i], i))
    {
      UnbiasInRange(net[i]);
    }
  }

  predicate IsByteEntry(e: Entry)
  {
    0 <= e.b < 256 && 0 <= e.g < 256 && 0 <= e.r < 256
  }

  lemma UnbiasInRange(n: Neuron)
    ensures Competition.InTrainedRange(n) ==> 0 <= Unbias(n.b) < 256 && 0 <= Unbias(n.g) < 256 && 0 <= Unbias(n.r) < 256
  {
    Pow2Values();
    if Competition.InTrainedRange(n) {
      ShrOfSmall(Trunc(n.b), NetBiasShift);
      ShrOfSmall(Trunc(n.g), NetBiasShift);
      ShrOfSmall(Trunc(n.r), NetBiasShift);
    }
  }

  // ----- inxbuild, as a reference definition -----

  /** The inner scan of inxbuild: the first position of the least green in
      s[lo..], with j the next position to look at. */
  function SmallestFrom(s: seq<Entry>, lo: nat, j: nat, smallpos: nat): (p: nat)
    requires lo <= smallpos < j <= |s|
    requires forall k :: lo <= k < j ==> s[smallpos].g <= s[k].g
    requires forall k :: lo <= k < smallpos ==> s[smallpos].g < s[k].g
    ensures lo <= p < |s|
    ensures forall k :: lo <= k < |s| ==> s[p].g <= s[k].g
    ensures forall k :: lo <= k < p ==> s[p].g < s[k].g
    decreases |s| - j
  {
    if j == |s| then smallpos
    else if s[j].g < s[smallpos].g then SmallestFrom(s, lo, j + 1, j)
    else SmallestFrom(s, lo, j + 1, smallpos)
  }

  function Swap(s: seq<Entry>, a: nat, b: nat): (r: seq<Entry>)
    requires a < |s| && b < |s|
    ensures |r| == |s|
    ensures r[a] == s[b] && r[b] == s[a]
    ensures forall k :: 0 <= k < |s| && k != a && k != b ==> r[k] == s[k]
  {
    s[a := s[b]][b := s[a]]
  }

  /** A store into the 256-entry Uint32Array netindex; out-of-range indices are ignored. */
  function Store(table: seq<int>, c: int, v: int): (r: seq<int>)
    ensures |r| == |table|
  {
    if 0 <= c < |table| then table[c := v] else table
  }

  /** `for (j = lo; j < hi; j++) netindex[j] = v`. */
  function Fill(table: seq<int>, lo: int, hi: int, v: int): (r: seq<int>)
    ensures |r| == |table|
  {
    seq(|table|, c requires 0 <= c < |table| => if lo <= c < hi then v else table[c])
  }

  /** The state of inxbuild's outer loop. */
  datatype IndexState = IndexState(table: seq<int>, previouscol: int, startpos: int)

  /** The netindex bookkeeping for the entry placed at position i with green
      smallval. (startpos + i) >> 1 is computed on small non-negative values,
      so it is plain halving. */
  function NoteGreen(st: IndexState, i: int, smallval: int): IndexState
  {
    if smallval != st.previouscol then
      IndexState(Fill(Store(st.table, st.previouscol, (st.startpos + i) / 2), st.previouscol + 1, smallval, i),
                 smallval, i)
    else st
  }

  /** The lines after the loop: close the last green run and fill the rest. */
  function FinishIndex(st: IndexState, maxnetpos: int): seq<int>
  {
    Fill(Store(st.table, st.previouscol, (st.startpos + maxnetpos) / 2), st.previouscol + 1, 256, maxnetpos)
  }

  datatype Organised = Organised(network: seq<Entry>, netindex: seq<int>)

  /** The swap step of inxbuild's outer loop: the first least-green entry of
      s[i..] moves to position i. */
  function PlaceSmallest(s: seq<Entry>, i: nat): (r: seq<Entry>)
    requires i < |s|
    ensures |r| == |s|
    ensures forall k :: 0 <= k < i ==> r[k] == s[k]
    ensures forall k :: i <= k < |s| ==> r[i].g <= s[k].g
  {
    var p := SmallestFrom(s, i, i + 1, i);
    if i != p then Swap(s, i, p) else s
  }

  /** inxbuild from outer position i on: place the least green, note it. */
  function InxFrom(s: seq<Entry>, i: nat, st: IndexState): (r: Organised)
    requires i <= |s|
    ensures |r.network| == |s|
    ensures |st.table| == 256 ==> |r.netindex| == 256
    decreases |s| - i
  {
    if i == |s| then Organised(s, FinishIndex(st, |s| - 1))
    else
      var s' := PlaceSmallest(s, i);
      InxFrom(s', i + 1, NoteGreen(st, i, s'[i].g))
  }

  /** A fresh 256-entry Uint32Array. */
  function ZeroIndex(): (z: seq<int>)
    ensures |z| == 256 && forall c :: 0 <= c < 256 ==> z[c] == 0
  {
    seq(256, c => 0)
  }

  /** inxbuild on a whole network: the fresh netindex holds zeros. */
  function Inx(s: seq<Entry>): (r: Organised)
    ensures |r.network| == |s| && |r.netindex| == 256
  {
    InxFrom(s, 0, IndexState(ZeroIndex(), 0, 0))
  }

  // ----- inxbuild, properties -----

  predicate SortedByGreen(s: seq<Entry>)
  {
    forall a, b :: 0 <= a < b < |s| ==> s[a].g <= s[b].g
  }

  /** s[..i] is sorted and no later entry is greener than its last. */
  predicate SortedPrefix(s: seq<Entry>, i: nat)
    requires i <= |s|
  {
    && (forall a, b :: 0 <= a < b < i ==> s[a].g <= s[b].g)
    && (forall a, b :: 0 <= a < i <= b < |s| ==> s[a].g <= s[b].g)
  }

  /** One swap step extends the sorted prefix and permutes the entries. */
  lemma PlaceSmallestPermutes(s: seq<Entry>, i: nat)
    requires i < |s|
    ensures multiset(PlaceSmallest(s, i)) == multiset(s)
  {
    var p := SmallestFrom(s, i, i + 1, i);
    if i != p {
      assert PlaceSmallest(s, i) == s[i := s[p]][p := s[i]];
    }
  }

  lemma PlaceSmallestSorts(s: seq<Entry>, i: nat)
    requires i < |s| && SortedPrefix(s, i)
    ensures SortedPrefix(PlaceSmallest(s, i), i + 1)
  {
    var p := SmallestFrom(s, i, i + 1, i);
    var s' := PlaceSmallest(s, i);
    if i == p {
      assert s' == s;
    } else {
      assert s' == s[i := s[p]][p := s[i]];
    }
    forall a, b | 0 <= a < b < i + 1
      ensures s'[a].g <= s'[b].g
    {
      assert s'[a] == s[a];
      if b < i {
        assert s'[b] == s[b];
      } else {
        assert s'[b] == s[p];
      }
    }
    forall a, b | 0 <= a < i + 1 <= b < |s'|
      ensures s'[a].g <= s'[b].g
    {
      if a < i {
        assert s'[a] == s[a];
        if b != p || i == p {
          assert s'[b] == s[b];
        } else {
          assert s'[b] == s[i];
        }
      } else {
        assert s'[a] == s[p];
        if b != p || i == p {
          assert s'[b] == s[b];
        } else {
          assert s'[b] == s[i];
        }
      }
    }
  }

  lemma {:induction false} InxFromSorts(s: seq<Entry>, i: nat, st: IndexState)
    requires i <= |s| && SortedPrefix(s, i)
    ensures multiset(InxFrom(s, i, st).network) == multiset(s)
    ensures SortedByGreen(InxFrom(s, i, st).network)
    decreases |s| - i
  {
    if i < |s| {
      var s', st' := PlaceSorted(s, i, st);
      InxFromSorts(s', i + 1, st');
    } else {
      assert InxFrom(s, i, st).network == s;
    }
  }

  /** One step of inxbuild's outer loop extends the sorted prefix and permutes. */
  lemma PlaceSorted(s: seq<Entry>, i: nat, st: IndexState) returns (s': seq<Entry>, st': IndexState)
    requires i < |s| && SortedPrefix(s, i)
    ensures |s'| == |s| && SortedPrefix(s', i + 1) && multiset(s') == multiset(s)
    ensures InxFrom(s, i, st) == InxFrom(s', i + 1, st')
  {
    s' := PlaceSmallest(s, i);
    st' := NoteGreen(st, i, s'[i].g);
    InxFromStep(s, i, st);
    PlaceSmallestPermutes(s, i);
    PlaceSmallestSorts(s, i);
  }

  /** One pass of inxbuild's outer loop, as InxFrom takes it. */
  lemma InxFromStep(s: seq<Entry>, i: nat, st: IndexState)
    requires i < |s|
    ensures var s' := PlaceSmallest(s, i);
      InxFrom(s, i, st) == InxFrom(s', i + 1, NoteGreen(st, i, s'[i].g))
  {
  }

  /** inxbuild leaves a green-sorted permutation of its input. */
  lemma InxSorts(s: seq<Entry>)
    ensures multiset(Inx(s).network) == multiset(s)
    ensures SortedByGreen(Inx(s).network)
  {
    InxFromSorts(s, 0, IndexState(ZeroIndex(), 0, 0));
  }

  predicate TableWithin(table: seq<int>, top: int)
  {
    |table| == 256 && forall c :: 0 <= c < 256 ==> 0 <= table[c] <= top
  }

  /** One run of netindex stores keeps every entry a network position. */
  lemma StoreFillWithin(table: seq<int>, c: int, v: int, lo: int, hi: int, w: int, top: int)
    requires TableWithin(table, top) && 0 <= v <= top && 0 <= w <= top
    ensures TableWithin(Fill(Store(table, c, v), lo, hi, w), top)
  {
    var stored := Store(table, c, v);
    assert forall k :: 0 <= k < 256 ==> 0 <= stored[k] <= top;
  }

  lemma {:induction false} InxFromIndexBounds(s: seq<Entry>, i: nat, st: IndexState)
    requires 0 < |s| && i <= |s|
    requires TableWithin(st.table, |s| - 1)
    requires 0 <= st.startpos <= i && st.startpos < |s|
    ensures TableWithin(InxFrom(s, i, st).netindex, |s| - 1)
    decreases |s| - i
  {
    if i == |s| {
      StoreFillWithin(st.table, st.previouscol, (st.startpos + |s| - 1) / 2, st.previouscol + 1, 256, |s| - 1, |s| - 1);
    } else {
      var s', st' := PlaceWithin(s, i, st);
      InxFromIndexBounds(s', i + 1, st');
    }
  }

  /** One step of inxbuild's outer loop keeps the table within the network. */
  lemma PlaceWithin(s: seq<Entry>, i: nat, st: IndexState) returns (s': seq<Entry>, st': IndexState)
    requires i < |s|
    requires TableWithin(st.table, |s| - 1)
    requires 0 <= st.startpos <= i
    ensures |s'| == |s| && TableWithin(st'.table, |s| - 1)
    ensures 0 <= st'.startpos <= i + 1 && st'.startpos < |s|
    ensures InxFrom(s, i, st) == InxFrom(s', i + 1, st')
  {
    s' := PlaceSmallest(s, i);
    var smallval := s'[i].g;
    st' := NoteGreen(st, i, smallval);
    InxFromStep(s, i, st);
    if smallval != st.previouscol {
      StoreFillWithin(st.table, st.previouscol, (st.startpos + i) / 2, st.previouscol + 1, smallval, i, |s| - 1);
    }
  }

  /** Every netindex entry is a network position. */
  lemma InxIndexBounds(s: seq<Entry>)
    requires 0 < |s|
    ensures TableWithin(Inx(s).netindex, |s| - 1)
  {
    InxFromIndexBounds(s, 0, IndexState(ZeroIndex(), 0, 0));
  }

  /** What netindex promises a search: every green value present in the
      sorted network points at a position holding that green, and every
      green above the largest points at maxnetpos. */
  predicate GreenIndexSound(o: Organised)
  {
    && |o.netindex| == 256
    && (forall k {:trigger o.netindex[o.network[k].g]} :: 0 <= k < |o.network| && 0 <= o.network[k].g < 256 ==>
          0 <= o.netindex[o.network[k].g] < |o.network| && o.network[o.netindex[o.network[k].g]].g == o.network[k].g)
    && (|o.network| > 0 ==>
          forall c :: 0 <= c < 256 && o.network[|o.network| - 1].g < c ==> o.netindex[c] == |o.network| - 1)
  }

  /** inxbuild's bookkeeping after placing f[..i]: previouscol is the green
      of the open run f[startpos..i], and every green of an earlier, closed
      run points into that run. Before the first entry, previouscol and
      startpos are the initial zeros. */
  predicate GreensIndexed(f: seq<Entry>, i: nat, st: IndexState)
    requires i <= |f|
  {
    && |st.table| == 256
    && (i == 0 ==> st.previouscol == 0 && st.startpos == 0)
    && (i > 0 ==> && st.previouscol == f[i - 1].g && 0 <= st.startpos < i
                  && forall k :: st.startpos <= k < i ==> f[k].g == st.previouscol)
    && (forall k {:trigger st.table[f[k].g]} :: 0 <= k < i && f[k].g != st.previouscol && 0 <= f[k].g < 256 ==>
          0 <= st.table[f[k].g] < i && f[st.table[f[k].g]].g == f[k].g)
  }

  /** Placing entry i closes the open run at its midpoint when the green
      changes, and the skipped greens, absent from f, are the only others
      written. */
  lemma NoteGreenIndexes(f: seq<Entry>, i: nat, st: IndexState)
    requires i < |f| && GreensIndexed(f, i, st)
    requires forall a, b :: 0 <= a < b <= i ==> f[a].g <= f[b].g
    ensures GreensIndexed(f, i + 1, NoteGreen(st, i, f[i].g))
  {
    var v := f[i].g;
    var prev := st.previouscol;
    if v != prev {
      var mid := (st.startpos + i) / 2;
      var st' := NoteGreen(st, i, v);
      forall k | 0 <= k < i + 1 && f[k].g != v && 0 <= f[k].g < 256
        ensures 0 <= st'.table[f[k].g] < i + 1 && f[st'.table[f[k].g]].g == f[k].g
      {
        EarlierGreenIndexed(f, i, st, k);
      }
    }
  }

  /** One earlier green, other than the new one, keeps a sound slot. */
  lemma EarlierGreenIndexed(f: seq<Entry>, i: nat, st: IndexState, k: nat)
    requires i < |f| && GreensIndexed(f, i, st)
    requires forall a, b :: 0 <= a < b <= i ==> f[a].g <= f[b].g
    requires f[i].g != st.previouscol
    requires k <= i && f[k].g != f[i].g && 0 <= f[k].g < 256
    ensures var t := NoteGreen(st, i, f[i].g).table;
      0 <= t[f[k].g] < i + 1 && f[t[f[k].g]].g == f[k].g
  {
    var t := NoteGreen(st, i, f[i].g).table;
    var c := f[k].g;
    assert k < i && c <= f[i - 1].g;
    if c == st.previouscol {
      assert t[c] == (st.startpos + i) / 2;
    } else {
      assert t[c] == st.table[c];
    }
  }

  /** The lines after the loop close the last run and point every larger
      green at maxnetpos. */
  lemma FinishIndexes(f: seq<Entry>, st: IndexState)
    requires 0 < |f| && SortedByGreen(f) && GreensIndexed(f, |f|, st)
    ensures GreenIndexSound(Organised(f, FinishIndex(st, |f| - 1)))
  {
    var n := |f|;
    var t := FinishIndex(st, n - 1);
    var mid := (st.startpos + n - 1) / 2;
    forall k | 0 <= k < n && 0 <= f[k].g < 256
      ensures 0 <= t[f[k].g] < n && f[t[f[k].g]].g == f[k].g
    {
      var c := f[k].g;
      if k < n - 1 {
        assert c <= f[n - 1].g;
      }
      if c == st.previouscol {
        assert t[c] == mid;
      } else {
        assert t[c] == st.table[c];
      }
    }
  }

  /** The netindex inxbuild computes, replayed over the network it leaves:
      the bookkeeping from outer position i on. */
  function IndexFrom(f: seq<Entry>, i: nat, st: IndexState): (table: seq<int>)
    requires i <= |f|
    ensures |st.table| == 256 ==> |table| == 256
    decreases |f| - i
  {
    if i == |f| then FinishIndex(st, |f| - 1)
    else IndexFrom(f, i + 1, NoteGreen(st, i, f[i].g))
  }

  /** Passes after position i leave positions before it alone, so the
      bookkeeping saw exactly the greens of the final network. */
  lemma {:induction false} InxFromReplays(s: seq<Entry>, i: nat, st: IndexState)
    requires i <= |s|
    ensures forall k :: 0 <= k < i ==> InxFrom(s, i, st).network[k] == s[k]
    ensures InxFrom(s, i, st).netindex == IndexFrom(InxFrom(s, i, st).network, i, st)
    decreases |s| - i
  {
    if i < |s| {
      var s' := PlaceSmallest(s, i);
      var st' := NoteGreen(st, i, s'[i].g);
      InxFromReplays(s', i + 1, st');
      var r := InxFrom(s', i + 1, st');
      assert InxFrom(s, i, st) == r;
      assert r.network[i] == s'[i];
      assert IndexFrom(r.network, i, st) == IndexFrom(r.network, i + 1, st');
    }
  }

  /** Over a sorted network the bookkeeping yields a sound green index. */
  lemma {:induction false} IndexFromGreens(f: seq<Entry>, i: nat, st: IndexState)
    requires i <= |f| && SortedByGreen(f) && GreensIndexed(f, i, st)
    ensures GreenIndexSound(Organised(f, IndexFrom(f, i, st)))
    decreases |f| - i
  {
    if i == |f| {
      FinishedGreens(f, st);
    } else {
      NextGreens(f, i, st);
      IndexFromGreens(f, i + 1, NoteGreen(st, i, f[i].g));
    }
  }

  /** One pass of the bookkeeping keeps GreensIndexed. */
  lemma NextGreens(f: seq<Entry>, i: nat, st: IndexState)
    requires i < |f| && SortedByGreen(f) && GreensIndexed(f, i, st)
    ensures GreensIndexed(f, i + 1, NoteGreen(st, i, f[i].g))
  {
    NoteGreenIndexes(f, i, st);
  }

  /** After the last pass the bookkeeping is sound. */
  lemma FinishedGreens(f: seq<Entry>, st: IndexState)
    requires SortedByGreen(f) && GreensIndexed(f, |f|, st)
    ensures GreenIndexSound(Organised(f, IndexFrom(f, |f|, st)))
  {
    if |f| > 0 {
      FinishIndexes(f, st);
    }
  }

  /** netindex is a green-to-position table: every green present in the
      sorted network points at an entry with that green, and the greens
      above the largest point at maxnetpos. */
  lemma InxIndexesGreens(s: seq<Entry>)
    ensures GreenIndexSound(Inx(s))
  {
    var init := IndexState(ZeroIndex(), 0, 0);
    InxSorts(s);
    InxFromReplays(s, 0, init);
    IndexFromGreens(Inx(s).network, 0, init);
    assert Inx(s) == Organised(Inx(s).network, IndexFrom(Inx(s).network, 0, init));
  }

  /** The sort is not stable: of two equally green entries, the one first in
      the input can end up last. */
  lemma InxIsNotStable()
    ensures var s := [Entry(0, 1, 0, 0), Entry(0, 1, 0, 1), Entry(0, 0, 0, 2)];
      Inx(s).network == [Entry(0, 0, 0, 2), Entry(0, 1, 0, 1), Entry(0, 1, 0, 0)]
  {
    var s := [Entry(0, 1, 0, 0), Entry(0, 1, 0, 1), Entry(0, 0, 0, 2)];
    var st0 := IndexState(ZeroIndex(), 0, 0);
    assert SmallestFrom(s, 0, 1, 0) == 2;
    var s1 := Swap(s, 0, 2);
    assert s1 == [Entry(0, 0, 0, 2), Entry(0, 1, 0, 1), Entry(0, 1, 0, 0)];
    assert PlaceSmallest(s, 0) == s1;
    var st1 := NoteGreen(st0, 0, 0);
    assert SmallestFrom(s1, 1, 2, 1) == 1;
    assert PlaceSmallest(s1, 1) == s1;
    var st2 := NoteGreen(st1, 1, 1);
    assert SmallestFrom(s1, 2, 3, 2) == 2;
    assert PlaceSmallest(s1, 2) == s1;
    var st3 := NoteGreen(st2, 2, 1);
    assert Inx(s) == InxFrom(s1, 1, st1);
    assert InxFrom(s1, 1, st1) == InxFrom(s1, 2, st2);
    assert InxFrom(s1, 2, st2) == InxFrom(s1, 3, st3);
  }

  // ----- inxbuild, as the engine runs it -----

  /** The inner loop of inxbuild: the first position of the least green in
      a[i..] and that green. */
  method SelectSmallest(a: seq<Entry>, i: nat) returns (smallpos: nat, smallval: int)
    requires i < |a|
    ensures i <= smallpos < |a| && smallval == a[smallpos].g
    ensures forall k :: i <= k < |a| ==> smallval <= a[k].g
    ensures forall k :: i <= k < smallpos ==> smallval < a[k].g
    ensures smallpos == SmallestFrom(a, i, i + 1, i)
  {
    smallpos, smallval := i, a[i].g;
    var j := i + 1;
    while j < |a|
      invariant i <= smallpos < j <= |a| && smallval == a[smallpos].g
      invariant forall k :: i <= k < j ==> smallval <= a[k].g
      invariant forall k :: i <= k < smallpos ==> smallval < a[k].g
      invariant SmallestFrom(a, i, j, smallpos) == SmallestFrom(a, i, i + 1, i)
    {
      if a[j].g < smallval {
        smallpos, smallval := j, a[j].g;
      }
      j := j + 1;
    }
  }

  /** `for (j = lo; j < hi; j++) netindex[j] = v` as a loop of stores. */
  method FillRun(table: seq<int>, lo: int, hi: int, v: int) returns (r: seq<int>)
    ensures |r| == |table|
    ensures forall c :: 0 <= c < |r| ==> r[c] == (if lo <= c < hi then v else table[c])
    ensures r == Fill(table, lo, hi, v)
  {
    r := table;
    var c := lo;
    while c < hi
      invariant c == lo || lo < c <= hi
      invariant |r| == |table|
      invariant forall k :: 0 <= k < |r| ==> r[k] == (if lo <= k < c then v else table[k])
      decreases hi - c
    {
      if 0 <= c < |r| {
        r := r[c := v];
      }
      c := c + 1;
    }
  }

  /** The bookkeeping after placing green smallval at position i: close the
      previous run at the midpoint of its positions and point every green
      skipped over at i. */
  method NoteGreenRun(index: seq<int>, previouscol: int, startpos: int, i: int, smallval: int)
    returns (index': seq<int>, previouscol': int, startpos': int)
    requires |index| == 256
    ensures |index'| == 256
    ensures smallval == previouscol ==> index' == index && previouscol' == previouscol && startpos' == startpos
    ensures smallval != previouscol ==> previouscol' == smallval && startpos' == i
    ensures smallval != previouscol ==> forall c :: 0 <= c < 256 ==>
      index'[c] == (if previouscol < c < smallval then i
                   else if c == previouscol then (startpos + i) / 2
                   else index[c])
    ensures IndexState(index', previouscol', startpos') == NoteGreen(IndexState(index, previouscol, startpos), i, smallval)
  {
    index', previouscol', startpos' := index, previouscol, startpos;
    if smallval != previouscol {
      if 0 <= previouscol < 256 {
        index' := index'[previouscol := (startpos + i) / 2];
      }
      index' := FillRun(index', previouscol + 1, smallval, i);
      previouscol', startpos' := smallval, i;
    }
  }

  /** The lines after inxbuild's loop: close the last run and point every
      green above it at the last position. */
  method FinishRun(index: seq<int>, previouscol: int, startpos: int, maxnetpos: int) returns (index': seq<int>)
    requires |index| == 256
    ensures |index'| == 256
    ensures forall c :: 0 <= c < 256 ==>
      index'[c] == (if previouscol < c then maxnetpos
                   else if c == previouscol then (startpos + maxnetpos) / 2
                   else index[c])
    ensures index' == FinishIndex(IndexState(index, previouscol, startpos), maxnetpos)
  {
    index' := index;
    if 0 <= previouscol < 256 {
      index' := index'[previouscol := (startpos + maxnetpos) / 2];
    }
    index' := FillRun(index', previouscol + 1, 256, maxnetpos);
  }

  /** inxbuild as the engine runs it: a selection sort by green that swaps
      the least remaining entry into place and records each run of greens in
      netindex as it goes. It computes exactly Inx. */
  method InxBuild(net: seq<Entry>) returns (sorted: seq<Entry>, netindex: seq<int>)
    ensures Organised(sorted, netindex) == Inx(net)
    ensures multiset(sorted) == multiset(net) && SortedByGreen(sorted)
    ensures |netindex| == 256
    ensures |net| > 0 ==> forall c :: 0 <= c < 256 ==> 0 <= netindex[c] < |net|
    ensures GreenIndexSound(Organised(sorted, netindex))
  {
    var a := net;
    var index := ZeroIndex();
    var previouscol, startpos := 0, 0;
    var i := 0;
    while i < |a|
      invariant 0 <= i <= |a| == |net| && |index| == 256
      invariant InxFrom(a, i, IndexState(index, previouscol, startpos)) == Inx(net)
    {
      ghost var before := a;
      InxFromStep(a, i, IndexState(index, previouscol, startpos));
      var smallpos, smallval := SelectSmallest(a, i);
      if i != smallpos {
        a := a[i := a[smallpos]][smallpos := a[i]];
      }
      assert a == PlaceSmallest(before, i) && smallval == a[i].g;
      index, previouscol, startpos := NoteGreenRun(index, previouscol, startpos, i, smallval);
      i := i + 1;
    }
    index := FinishRun(index, previouscol, startpos, |a| - 1);
    sorted, netindex := a, index;
    InxSorts(net);
    InxIndexesGreens(net);
    if |net| > 0 {
      InxIndexBounds(net);
    }
  }

  // ----- getColorMap -----

  /** `index[network[i][3]] = i` for i ascending, on a zero-filled Buffer:
      a tag outside the buffer is ignored and the stored position is masked
      to a byte. */
  function TagIndexFrom(s: seq<Entry>, i: nat, index: seq<int>): (r: seq<int>)
    requires i <= |s| && |index| == |s|
    requires forall t :: 0 <= t < |s| ==> 0 <= index[t] < |s|
    ensures |r| == |s|
    ensures forall t :: 0 <= t < |s| ==> 0 <= r[t] < |s|
    decreases |s| - i
  {
    if i == |s| then index
    else
      var tag := s[i].tag;
      var index' := if 0 <= tag < |s| then index[tag := i % 256] else index;
      TagIndexFrom(s, i + 1, index')
  }

  function TagIndex(s: seq<Entry>): (r: seq<int>)
    ensures |r| == |s|
    ensures forall t :: 0 <= t < |s| ==> 0 <= r[t] < |s|
  {
    TagIndexFrom(s, 0, seq(|s|, t => 0))
  }

  /** Channel c (0, 1, 2 for b, g, r) of an entry. */
  function Channel(e: Entry, c: nat): int
    requires c < 3
  {
    if c == 0 then e.b else if c == 1 then e.g else e.r
  }

  /** getColorMap: slot t of the palette is the entry index[t], each channel
      masked to a byte. */
  function GetColorMap(s: seq<Entry>): (map_: seq<Byte>)
    ensures |map_| == 3 * |s|
  {
    var index := TagIndex(s);
    seq(3 * |s|, j requires 0 <= j < 3 * |s| => LowByte(Channel(s[index[j / 3]], j % 3)))
  }

  /** The tags of s are exactly the positions 0..|s|-1, each once. */
  predicate TagsArePermutation(s: seq<Entry>)
  {
    && (forall a, b :: 0 <= a < b < |s| ==> s[a].tag != s[b].tag)
    && (forall a :: 0 <= a < |s| ==> 0 <= s[a].tag < |s|)
  }

  lemma {:induction false} TagIndexFromInverts(s: seq<Entry>, i: nat, index: seq<int>)
    requires i <= |s| <= 256 && |index| == |s| && TagsArePermutation(s)
    requires forall t :: 0 <= t < |s| ==> 0 <= index[t] < |s|
    requires forall p :: 0 <= p < i ==> index[s[p].tag] == p
    ensures forall p :: 0 <= p < |s| ==> TagIndexFrom(s, i, index)[s[p].tag] == p
    decreases |s| - i
  {
    if i < |s| {
      var tag := s[i].tag;
      var index' := index[tag := i % 256];
      forall p | 0 <= p < i + 1
        ensures index'[s[p].tag] == p
      {
        if p < i {
          assert s[p].tag != tag;
        }
      }
      TagIndexFromInverts(s, i + 1, index');
    }
  }

  /** With a tag permutation, index[t] is the position holding tag t. */
  lemma TagIndexInverts(s: seq<Entry>, p: int)
    requires |s| <= 256 && TagsArePermutation(s) && 0 <= p < |s|
    ensures TagIndex(s)[s[p].tag] == p
  {
    TagIndexFromInverts(s, 0, seq(|s|, t => 0));
  }

  /** Palette slot of tag t holds the entry tagged t. */
  lemma ColorMapFollowsTags(s: seq<Entry>, p: int, c: nat)
    requires |s| <= 256 && TagsArePermutation(s) && 0 <= p < |s| && c < 3
    ensures GetColorMap(s)[3 * s[p].tag + c] == LowByte(Channel(s[p], c))
  {
    TagIndexInverts(s, p);
    var j := 3 * s[p].tag + c;
    assert j / 3 == s[p].tag && j % 3 == c;
  }

  /** The palette in original order: slot t of getColorMap holds entry t of
      the de-biased network, however inxbuild permuted it. */
  lemma PaletteInOriginalOrder(net: seq<Neuron>, t: int, c: nat)
    requires |net| <= 256 && 0 <= t < |net| && c < 3
    ensures GetColorMap(Inx(UnbiasNet(net)).network)[3 * t + c] == LowByte(Channel(UnbiasNet(net)[t], c))
  {
    StampedPaletteInOrder(UnbiasNet(net), t, c);
  }

  /** The same for any entries stamped with their own positions. */
  lemma StampedPaletteInOrder(u: seq<Entry>, t: int, c: nat)
    requires |u| <= 256 && 0 <= t < |u| && c < 3
    requires forall i :: 0 <= i < |u| ==> u[i].tag == i
    ensures GetColorMap(Inx(u).network)[3 * t + c] == LowByte(Channel(u[t], c))
  {
    var s := Inx(u).network;
    InxSorts(u);
    UnbiasedTagsPermuted(u, s);
    var p := PositionAfterSort(u, s, t);
    ColorMapFollowsTags(s, p, c);
  }

  /** Where entry t of u landed in its permutation s. */
  lemma PositionAfterSort(u: seq<Entry>, s: seq<Entry>, t: int) returns (p: int)
    requires multiset(s) == multiset(u) && 0 <= t < |u|
    ensures 0 <= p < |s| && s[p] == u[t]
  {
    assert u[t] in multiset(u);
    p :| 0 <= p < |s| && s[p] == u[t];
  }

  // ----- buildColorMap -----

  /** The engine after buildColorMap. */
  datatype Trained = Trained(netsize: int, network: seq<Entry>, netindex: seq<int>)

  /** learn, then unbiasnet, then inxbuild. */
  function BuildColorMap(e: Engine, pull: Learning.Pull): (r: Result<Trained>)
    requires e.Valid()
    ensures r.Ok? ==> |r.value.network| == e.netsize && r.value.netsize == e.netsize
    ensures r.Ok? ==> TagsArePermutation(r.value.network) && SortedByGreen(r.value.network)
    ensures r.Ok? ==> TableWithin(r.value.netindex, e.netsize - 1)
    ensures r.Ok? <==> Learning.Learn(e, pull).Ok?
    ensures r.Ok? ==> forall a :: 0 <= a < |r.value.network| ==>
              var tag := r.value.network[a].tag;
              0 <= tag < e.netsize && r.value.network[a] == UnbiasNet(Learning.Learn(e, pull).value.network)[tag]
  {
    match Learning.Learn(e, pull)
    case Err(x) => Err(x)
    case Ok(learned) =>
      var u := UnbiasNet(learned.network);
      var o := Inx(u);
      InxSorts(u);
      InxIndexBounds(u);
      UnbiasedTagsPermuted(u, o.network);
      Ok(Trained(e.netsize, o.network, o.netindex))
  }

  /** Any rearrangement of a freshly stamped network keeps a tag permutation. */
  lemma UnbiasedTagsPermuted(u: seq<Entry>, s: seq<Entry>)
    requires forall i :: 0 <= i < |u| ==> u[i].tag == i
    requires multiset(s) == multiset(u)
    ensures TagsArePermutation(s)
    ensures forall a :: 0 <= a < |s| ==> 0 <= s[a].tag < |u| && s[a] == u[s[a].tag]
  {
    assert |s| == |multiset(s)| == |u|;
    forall a | 0 <= a < |s|
      ensures 0 <= s[a].tag < |s| && s[a] == u[s[a].tag]
    {
      assert s[a] in multiset(u);
      var k :| 0 <= k < |u| && u[k] == s[a];
    }
    forall a, b | 0 <= a < b < |s|
      ensures s[a].tag != s[b].tag
    {
      if s[a].tag == s[b].tag {
        assert s[a] == s[b];
        MultisetCountTwo(s, a, b);
        assert multiset(u)[s[a]] >= 2;
        TagsMakeEntriesUnique(u, s[a]);
      }
    }
  }

  lemma MultisetCountTwo(s: seq<Entry>, a: int, b: int)
    requires 0 <= a < b < |s| && s[a] == s[b]
    ensures multiset(s)[s[a]] >= 2
  {
    var x := s[a];
    assert s == s[..a] + [x] + s[a+1..b] + [x] + s[b+1..];
    assert multiset(s) == multiset(s[..a]) + multiset{x} + multiset(s[a+1..b]) + multiset{x} + multiset(s[b+1..]);
  }

  lemma TagsMakeEntriesUnique(u: seq<Entry>, x: Entry)
    requires forall i :: 0 <= i < |u| ==> u[i].tag == i
    ensures multiset(u)[x] <= 1
  {
    if |u| > 0 {
      var init := u[..|u| - 1];
      assert u == init + [u[|u| - 1]];
      TagsMakeEntriesUnique(init, x);
      if u[|u| - 1] == x {
        assert x !in multiset(init);
      }
    }
  }
}
